=== FILE: README.md ===
# Field-service route optimiser: a Dafny model

This project models the computational core of a field-service management
application, written in TypeScript. The model covers four pieces:

- **The route-optimisation endpoint** (`POST /api/optimize-route`). For one
  technician and one day, it does the following:
  - gives each eligible work order a location label taken from its customer's
    address;
  - builds a fuel-cost matrix from a built-in edge table that is completed on
    the fly;
  - solves a travelling-salesman tour from the depot, using nearest neighbour
    and then 2-opt;
  - lets appointment times override the solved order;
  - computes distance, travel, service and duration metrics;
  - stores the result as the technician's schedule for the day, unless the
    stored schedule already lists the same orders.
- **The route graph's pure computations.** These are the highlighted edges,
  the optimised and alphabetical tour costs, the savings and savings
  percentage, and the node numbering.
- **Work-order creation** (`POST /api/workorders`). This is the validation,
  the invoice total from used inventory and the service fee, and the stored
  quantities.
- **The billing upsert** (`POST /api/billing`).

Everything is pure functions and heap-free methods over immutable datatypes.
Three things the handlers do become explicit parameters or results:

- the database reads: known technician ids, the day's eligible orders, the
  stored schedule, unit prices and the stored billing row;
- the clock: the day is an integer timestamp;
- the database writes: the record the handler would save.

Modules follow the source:

| module | models |
|---|---|
| `Labels` | `extractLocationLabel` (the three JavaScript regexes, `trim`, `toUpperCase`) and the `C<k>` fallback label |
| `FuelCost` | `generateDefaultFuelCost`, `getFuelCost`, the built-in edge table and its fill loop |
| `CostMatrix` | the cost-matrix loop |
| `Matrices`, `Walks` | cost matrices, closed tours, the cost of a walk |
| `NearestNeighbour`, `TwoOpt`, `Solver` | `solveTSP` |
| `DateOverride` | the appointment-time sort and the choice of final order |
| `RouteMetrics` | the metric formulas and `Math.round` |
| `Jobs`, `Optimizer` | the optimisation handler end to end |
| `Scenario` | one worked day, computed through the whole handler, and an asymmetric matrix on which 2-opt never stops |
| `RouteGraph`, `Strings` | the route graph's computations and the default string sort |
| `WorkOrders` | work-order creation |
| `Billing` | the billing upsert |
| `Common` | shared option, result and sequence vocabulary |

Some behaviours of the code are easy to misread; the model follows the code
as written:

- **Unreachable depot branch.** `generateDefaultFuelCost` has a branch for
  the depot `Z` paired with a letter. It can never be taken, because `Z` is
  itself a letter and the first branch already catches every letter pair
  (`FuelCost.DepotBranchUnreachable`). A depot paired with a letter therefore
  costs `20 + 10·|distance|`, not `40 + 10·(letter − A)`.
- **2-opt keeps scanning.** After a move is accepted, the 2-opt pass does not
  restart. It keeps scanning with the reversed route. Passes repeat until one
  accepts nothing.
- **Metrics use the solver's tour.** The distance and duration are computed
  on the solver's tour (depot, solved route, depot), even when appointment
  times reorder the stored route.
- **The cached answer differs from the solved one.** It reports a travel time
  of 0 and the depot label `"Z"` whatever depot was requested. Its service
  time is recomputed with the current request's per-job time.
- **Empty days update the stored schedule.** A day without orders updates an
  existing schedule to an empty route with zero totals. It does not leave the
  schedule as it is.
- **2-opt needs a symmetric matrix.** The 2-opt test compares only the two
  boundary legs of a move, which equals the change in tour cost only when the
  matrix is symmetric. On an asymmetric matrix, a pass can report an
  improvement that raises the cost, and the loop can run forever
  (`Scenario.LopsidedTwoOptCycles`). The handler only builds symmetric
  matrices (`CostMatrix.ForDay`), so it never reaches this case.

## Model

| member | source | states |
|---|---|---|
| Labels.ExtractLabel | src/app/api/optimize-route/route.ts:17-31 | A label, when there is one, is an upper-case ASCII letter |
| Labels.LetterMatchIsLeftmostLoneLetter | src/app/api/optimize-route/route.ts:19-20 | The first regex matches exactly when the address has a letter standing alone between word boundaries, and it captures the leftmost such letter; the parenthesis alternative never changes the result |
| Labels.ExtractLabelLoneLetter | src/app/api/optimize-route/route.ts:19-20 | The leftmost lone letter, upper-cased, is the label, whatever else the address holds |
| Labels.LocationAtIsRegexMatch | src/app/api/optimize-route/route.ts:23 | The model's `location` test holds exactly when `location`, one or more JavaScript whitespace characters and a letter follow one another at that position |
| Labels.ExtractLabelLocation | src/app/api/optimize-route/route.ts:22-24 | With no lone letter, the letter after the leftmost `location` plus whitespace is the label |
| Labels.ExtractLabelLeading | src/app/api/optimize-route/route.ts:26-30 | With neither, the label is the first character of the trimmed address when it is a letter followed by a non-letter; otherwise there is none |
| Labels.LeadingLetterNeedsWordChar | src/app/api/optimize-route/route.ts:19-28 | The third pattern can only fire on a letter followed by a digit or `_` |
| Labels.TrimStart | src/app/api/optimize-route/route.ts:27 | The result is a suffix of the text; everything removed is whitespace; the result does not start with whitespace |
| Labels.TrimEnd | src/app/api/optimize-route/route.ts:27 | The result is a prefix of the text; everything removed is whitespace; the result does not end with whitespace |
| Labels.Trim | src/app/api/optimize-route/route.ts:27 | `trim` is `TrimStart` then `TrimEnd`. Their contracts say only whitespace is removed and none is left at either end |
| Labels.DecimalRoundTrip | src/app/api/optimize-route/route.ts:233 | Reading back the decimal numeral interpolated into a fallback label gives the number |
| Labels.FallbackLabelInjective | src/app/api/optimize-route/route.ts:233 | Different order positions get different `C<k>` labels, none of them a single letter |
| Jobs.AddressText | src/app/api/optimize-route/route.ts:233 | The text handed to the label extractor is the customer's address, or the empty string when there is none |
| Labels.JobLabel | src/app/api/optimize-route/route.ts:233 | A job's solver label is its one-letter address label when there is one, else the fallback for its position |
| FuelCost.DefaultFuelCostFormula | src/app/api/optimize-route/route.ts:34-56 | The synthetic cost is 20 plus 10 per letter of distance for two letters and 50 otherwise; it is symmetric and at least 20 |
| FuelCost.DefaultFuelCost | src/app/api/optimize-route/route.ts:34-56 | Computes `generateDefaultFuelCost` with all of its branches. `FuelCost.DefaultFuelCostFormula` states its closed form: the letter distance for two single letters and 50 otherwise. It also states that the cost is symmetric and at least 20 |
| FuelCost.DepotBranchUnreachable | src/app/api/optimize-route/route.ts:44-52 | Whenever the depot branch is reached, its inner letter test fails, so the branch always falls through to 50 |
| FuelCost.DefaultEdgesWellFormed | src/app/api/optimize-route/route.ts:241-248 | The built-in table is symmetric, has no self-edges and has no cost below 20 |
| FuelCost.LookupFilled | src/app/api/optimize-route/route.ts:254-265 | After the fill loop, looking up two labels of the day gives the stored non-zero cost of a distinct pair, else the synthetic cost |
| FuelCost.FillRow | src/app/api/optimize-route/route.ts:254-262 | One label's row after the fill loop: every other label of the day without a non-zero entry gets the synthetic cost. `FuelCost.LookupFilled` states what a lookup then returns |
| FuelCost.Fill | src/app/api/optimize-route/route.ts:250-265 | The table after the fill loop over every label of the day. By `FuelCost.LookupFilled`, each pair of labels then has a stored non-zero cost for a distinct pair, or else the synthetic cost |
| FuelCost.Lookup | src/app/api/optimize-route/route.ts:59-72 | `getFuelCost`: the direct edge, else the reverse edge, else the synthetic cost. On the filled table, `FuelCost.LookupFilled` gives it in closed form, and `FuelCost.TableCostSymmetric` makes it direction-free on a symmetric table |
| FuelCost.TableCostSymmetric | src/app/api/optimize-route/route.ts:59-72 | On a symmetric table a pair costs the same in both directions |
| FuelCost.TableCostAtLeast20 | src/app/api/optimize-route/route.ts:241-265 | With stored costs of at least 20, every pair costs at least 20 |
| CostMatrix.NodeLabelSet | src/app/api/optimize-route/route.ts:251-252 | The set of labels the fill loop completes is the jobs' labels plus the depot's |
| CostMatrix.NodeLabels | src/app/api/optimize-route/route.ts:270-280 | The node list is the job labels in order followed by the depot, so the depot's index is the number of jobs |
| CostMatrix.Build | src/app/api/optimize-route/route.ts:283-300 | The matrix is square with a zero diagonal, and every other entry is the edge lookup of the two node labels |
| CostMatrix.ForDay | src/app/api/optimize-route/route.ts:241-300 | The day's matrix has one node per job plus the depot last; it is symmetric with a zero diagonal, and each other entry is the table cost of its labels and at least 20 |
| CostMatrix.SharedLetterCosts20 | src/app/api/optimize-route/route.ts:36-41 | Two jobs at the same lettered location cost 20 to each other |
| CostMatrix.NonLetterCosts50 | src/app/api/optimize-route/route.ts:54-55 | A node whose label is not a single letter, such as a `C<k>` label, costs 50 to every other node |
| NearestNeighbour.NearestFrom | src/app/api/optimize-route/route.ts:92-99 | The scan returns none only when every node is visited; otherwise it returns an unvisited node no dearer than any other, and strictly cheaper than every unvisited node of lower index |
| NearestNeighbour.Nearest | src/app/api/optimize-route/route.ts:91-105 | There is no candidate exactly when every node is visited, and the candidate is the first cheapest unvisited node |
| NearestNeighbour.ExtendGreedy | src/app/api/optimize-route/route.ts:100-103 | Moving to the nearest node keeps the route greedy with each node once, and strictly shrinks the set of unvisited nodes |
| NearestNeighbour.Construct | src/app/api/optimize-route/route.ts:84-105 | The construction extends the route it is given, visits every node exactly once and picks every stop as the nearest unvisited node |
| NearestNeighbour.Tour | src/app/api/optimize-route/route.ts:84-108 | The constructed tour is closed at the depot and visits every other node once, each the nearest unvisited node to its predecessor |
| TwoOpt.ReverseSegment | src/app/api/optimize-route/route.ts:120 | The splice keeps the route's length. `TwoOpt.ReverseSegmentShape` states its shape: the segment mirrored, the rest in place, the same stops |
| TwoOpt.ReverseSegmentShape | src/app/api/optimize-route/route.ts:120 | The splice mirrors the stops inside the segment, leaves those outside in place and keeps the same stops |
| TwoOpt.ReverseSegmentCost | src/app/api/optimize-route/route.ts:116-120 | On a symmetric matrix a move changes the tour cost by exactly the difference of its new and old boundary legs |
| TwoOpt.ScanKeeps | src/app/api/optimize-route/route.ts:114-124 | A scan keeps both depot ends and the multiset of stops |
| TwoOpt.ScanOutcome | src/app/api/optimize-route/route.ts:114-124 | A scan either took no move, and then no remaining move improves the tour, or it raised the flag and the tour got strictly cheaper |
| TwoOpt.Scan | src/app/api/optimize-route/route.ts:113-124 | One pass of the nested loops, resumed at `(i, j)`; it keeps the tour's length. `TwoOpt.ScanKeeps` states that it keeps the ends and the stops. `TwoOpt.ScanOutcome` states that it either leaves no improving move or lowers the cost with the flag set |
| TwoOpt.Improve | src/app/api/optimize-route/route.ts:110-125 | The improvement loop ends; it keeps the ends and the stops, never raises the cost, and leaves no improving 2-opt move |
| TwoOpt.ImproveLoop | src/app/api/optimize-route/route.ts:111-125 | The `while (improved)` loop computes `Improve` |
| TwoOpt.PassLoop | src/app/api/optimize-route/route.ts:113-124 | One pass of the two `for` loops computes one scan from the first move with the flag cleared |
| TwoOpt.InnerLoop | src/app/api/optimize-route/route.ts:115-123 | The inner `for` loop for one `i` performs exactly the scan of that row |
| TwoOpt.ScanStep | src/app/api/optimize-route/route.ts:116-122 | An improving pair is reversed and raises the flag; a non-improving pair is skipped |
| Solver.DropDepot | src/app/api/optimize-route/route.ts:129-131 | The depot never survives the filter, nothing else is added, and a route without the depot passes unchanged |
| Solver.Strip | src/app/api/optimize-route/route.ts:127-133 | The depot never appears in the result. `Solver.StripReordered` shows that on a closed tour the result is exactly the interior stops |
| Solver.StripReordered | src/app/api/optimize-route/route.ts:127-133 | A reordering that keeps a closed tour's ends is the depot, its stripped interior and the depot again |
| Solver.SolveTour | src/app/api/optimize-route/route.ts:75-134 | The solver returns `[]` for no nodes and `[0]` for one; otherwise it returns every non-depot node exactly once, in a closed tour no dearer than the nearest-neighbour tour |
| Solver.SolveTourLocallyOptimal | src/app/api/optimize-route/route.ts:110-134 | The solved tour, closed at the depot, admits no improving 2-opt move |
| DateOverride.Entries | src/app/api/optimize-route/route.ts:322-323 | One entry per order, in order position, holding its id, its appointment time and its first index in the solved route (-1 when absent) |
| DateOverride.Sort | src/app/api/optimize-route/route.ts:324-329 | The sorted array holds the same entries and is ordered by the comparator. `DateOverride.SortedUnique` makes it the only such arrangement when the route positions differ, so any correct sort, stable or not, agrees with it |
| DateOverride.NoneDatedSorted | src/app/api/optimize-route/route.ts:332 | The `every` test on the sorted array holds exactly when no order has an appointment time (`DateOverride.NoneDated`) |
| DateOverride.Compare | src/app/api/optimize-route/route.ts:324-329 | The comparator is negative exactly when the first order has the earlier time (a missing time counts as last), or equal times and the earlier route position |
| DateOverride.SortedUnique | src/app/api/optimize-route/route.ts:322-329 | Two sorted arrangements of entries with distinct route positions are equal, so the sorted order does not depend on the sort algorithm |
| DateOverride.FinalOrder | src/app/api/optimize-route/route.ts:331-334 | Without any appointment time the route order is kept; otherwise the result is the ids of some arrangement of the entries that is sorted by the comparator and holds each entry once |
| DateOverride.DatedOrderCharacterised | src/app/api/optimize-route/route.ts:321-334 | The overridden order is the ids of any sequence of the entries sorted by the comparator, and it lists every order id exactly once |
| DateOverride.OnlyDatedFirst | src/app/api/optimize-route/route.ts:321-334 | When one order alone has an appointment time, it is visited first |
| RouteMetrics.Round | src/app/api/optimize-route/route.ts:371-374 | `Math.round` returns the integer within one half of the value, with halves going up |
| RouteMetrics.RoundWhole | src/app/api/optimize-route/route.ts:341 | Rounding a whole number, to units or to cents, changes nothing, so the stored distance is the tour cost |
| RouteMetrics.RoundCents | src/app/api/optimize-route/route.ts:341 | The result is a whole number of cents, within half a cent of the value, with halves going up |
| RouteMetrics.TravelMinutes | src/app/api/optimize-route/route.ts:314 | The travel time covers the distance at 50 units per hour and is never negative for a non-negative distance |
| RouteMetrics.Compute | src/app/api/optimize-route/route.ts:306-316 | The distance is the tour cost, the service time is the per-job time over all jobs, and the duration is their sum |
| RouteMetrics.DurationRounding | src/app/api/optimize-route/route.ts:342 | The stored duration is the rounded travel time plus the service time |
| Optimizer.EmptyDayRecord | src/app/api/optimize-route/route.ts:178-193 | An empty day writes an empty route with zero totals, into the existing record when there is one |
| Optimizer.DepotLabel | src/app/api/optimize-route/route.ts:139 | The requested depot label, or `"Z"` when the request gives none |
| Optimizer.ServiceTime | src/app/api/optimize-route/route.ts:139 | The requested minutes per job, or 30 when the request gives none |
| Optimizer.CacheHitIffSameIds | src/app/api/optimize-route/route.ts:197-204 | The cache test holds exactly when the stored route is non-empty and lists the same set of ids as the day's orders |
| Optimizer.CacheHit | src/app/api/optimize-route/route.ts:197-204 | The size-and-containment test as written. `Optimizer.CacheHitIffSameIds` shows it is set equality of the stored and current ids, with a non-empty stored route |
| Optimizer.CachedResponse | src/app/api/optimize-route/route.ts:205-226 | A cache hit returns the stored record unchanged, with metrics read back from it, travel time 0 and depot `"Z"` |
| Optimizer.JobLabels | src/app/api/optimize-route/route.ts:231-237 | Each order gets the label of its customer's address, or the fallback for its position |
| Optimizer.DayMatrix | src/app/api/optimize-route/route.ts:269-300 | The day's matrix has one node per order plus the depot, is symmetric with a zero diagonal, and every other entry is at least 20 |
| Optimizer.Route | src/app/api/optimize-route/route.ts:302-303 | The solved route visits every order exactly once, closes into a tour at the depot, and costs no more than the nearest-neighbour tour |
| Optimizer.SolvedRecord | src/app/api/optimize-route/route.ts:336-353 | The saved record holds the final order, the distance rounded to cents and the duration rounded to minutes, in the existing record when there is one |
| Optimizer.SolvedOn | src/app/api/optimize-route/route.ts:305-380 | The reported route order, distance and duration are the saved ones, and the route order is the final order after the date override. Fuel cost equals distance equals the tour cost. Travel time is the rounded minutes at 50 units an hour (distance·60/50), positive. Service time is the number of orders times the per-job time. Duration is the rounded travel time plus the service time. The depot is the requested one |
| Optimizer.SolvedResponse | src/app/api/optimize-route/route.ts:230-380 | On the day's own matrix, the saved route lists every order id once, and the reported distance is the solved tour's cost: at least 20 and no more than the nearest-neighbour tour's |
| Optimizer.Optimize | src/app/api/optimize-route/route.ts:136-228 | The handler answers 400 without a technician id and 404 for an unknown technician, and succeeds otherwise. An empty day yields the empty record without metrics. Any other day yields a route that lists exactly the day's order ids, reported as saved |
| Optimizer.StoredRouteIsCached | src/app/api/optimize-route/route.ts:196-227 | A stored record whose route lists exactly the day's ids is returned as it is |
| Optimizer.RepeatIsCached | src/app/api/optimize-route/route.ts:170-227 | Calling again with the record the first call saved returns that record unchanged, with the same route order, distance and duration |
| Optimizer.ResolvesOnChangedIds | src/app/api/optimize-route/route.ts:196-233 | Without a stored record, or when its ids differ from the day's, the day is solved afresh |
| Optimizer.RepeatReportsNoTravel | src/app/api/optimize-route/route.ts:216-224 | The solving call reports a positive travel time and the requested depot, but the repeated call reports travel time 0 and depot `"Z"` |
| Optimizer.FinalRouteOrderPermutation | src/app/api/optimize-route/route.ts:318-334 | The final order lists every order id exactly as often as the orders do, with or without the date override |
| Optimizer.NoDatesKeepsSolverOrder | src/app/api/optimize-route/route.ts:319-333 | Without appointment times, position `k` of the final order is the id of the order the solver placed `k`-th |
| Optimizer.OnlyDatedOrderFirst | src/app/api/optimize-route/route.ts:321-334 | The only order with an appointment time comes first, wherever the solver placed it |
| Optimizer.SingleOrder | src/app/api/optimize-route/route.ts:84-133 | A day with one order visits just that order |
| Optimizer.RouteCostBounds | src/app/api/optimize-route/route.ts:306-310 | The reported fuel cost is at least one 20-unit leg and at most the nearest-neighbour tour's cost |
| Optimizer.RouteCost | src/app/api/optimize-route/route.ts:306-310 | The fuel cost of the closed tour from the depot through the solved route. `Optimizer.RouteCostBounds` bounds it below by 20 and above by the nearest-neighbour tour |
| Optimizer.FinalRouteOrder | src/app/api/optimize-route/route.ts:318-334 | The solver's order ids after the date override. `Optimizer.FinalRouteOrderPermutation`, `Optimizer.NoDatesKeepsSolverOrder` and `Optimizer.OnlyDatedOrderFirst` state its properties |
| Scenario.DayMatrixOfLabels | src/app/api/optimize-route/route.ts:241-300 | For jobs at A, B and C and depot Z, the matrix holds the table's costs 20, 40, 50, 30, 60 and 70 |
| Scenario.ClosedToursCostAtLeast170 | src/app/api/optimize-route/route.ts:241-248 | On those costs every closed tour costs at least 170, and only Z-A-B-C-Z and its reverse cost exactly 170 |
| Scenario.NearestNeighbourTour | src/app/api/optimize-route/route.ts:84-108 | From Z, the construction takes A, then B, then C |
| Scenario.TwoOptKeepsBest | src/app/api/optimize-route/route.ts:110-125 | 2-opt leaves the optimal tour Z-A-B-C-Z unchanged |
| Scenario.SolvedOrder | src/app/api/optimize-route/route.ts:75-134 | The solver's order for that day is A, B, C |
| Scenario.SiteLabel | src/app/api/optimize-route/route.ts:19-20 | The address `Site X` gets the label X |
| Scenario.ThreeStopMetrics | src/app/api/optimize-route/route.ts:305-316 | That day reports fuel cost 170, travel time 204 minutes and duration 294 minutes with 30 minutes per job |
| Scenario.LopsidedTwoOptCycles | src/app/api/optimize-route/route.ts:84-125 | On a four-node asymmetric matrix, the nearest-neighbour tour from the depot and a second tour turn into each other. Each 2-opt pass reports an improvement, so `while (improved)` never ends, and the first pass raises the tour cost |
| Scenario.ThreeStopDay | src/app/api/optimize-route/route.ts:136-380 | Three undated orders at Site A, Site B and Site C, with no stored record, are scheduled in that order with distance 170 and duration 294 |
| RouteGraph.Stops | src/components/RouteGraph.tsx:20-22 | The drawn tour is the depot, the route labels in order, and the depot |
| RouteGraph.Marked | src/components/RouteGraph.tsx:19-25 | After `i` legs, the marked keys are exactly both keys of each of those legs |
| RouteGraph.LegHighlighted | src/components/RouteGraph.tsx:19-25 | Both directions of every leg of the tour are highlighted |
| RouteGraph.KeyInjective | src/components/RouteGraph.tsx:23-24 | With dash-free labels, different label pairs give different keys |
| RouteGraph.HighlightedIsLeg | src/components/RouteGraph.tsx:19-25 | With dash-free labels, a highlighted pair is two consecutive stops of the tour, in one order or the other |
| RouteGraph.OptimizedEdges | src/components/RouteGraph.tsx:19-25 | The highlighted keys. `RouteGraph.LegHighlighted` and `RouteGraph.HighlightedIsLeg` show they are exactly both keys of each leg of the tour |
| RouteGraph.LegCost | src/components/RouteGraph.tsx:32-33 | A leg adds the cost of the first edge joining its two labels in either direction, or 0 when there is none |
| RouteGraph.FindEdge | src/components/RouteGraph.tsx:32 | The search returns the first edge that joins the two labels in either direction, and none only when no edge does |
| RouteGraph.FindEdgeSymmetric | src/components/RouteGraph.tsx:32 | The search result does not depend on the direction of the leg |
| RouteGraph.OptimizedCost | src/components/RouteGraph.tsx:27-34 | The loop adds, for every leg from the depot through the route and back, the cost of the edge found, or nothing |
| RouteGraph.ReversedRouteSameCost | src/components/RouteGraph.tsx:27-34 | Driving the route backwards gives the same optimised cost |
| RouteGraph.NaiveCost | src/components/RouteGraph.tsx:36-46 | The alphabetical cost is 0 for an empty route; otherwise it is the tour cost of every lexicographically sorted arrangement of the route's labels |
| RouteGraph.NaiveCostOrderFree | src/components/RouteGraph.tsx:36-46 | The alphabetical cost depends only on which labels the route holds, not on their order |
| RouteGraph.SortedRouteSavesNothing | src/components/RouteGraph.tsx:36-48 | A route already in alphabetical order shows zero savings |
| RouteGraph.Savings | src/components/RouteGraph.tsx:48 | The alphabetical cost minus the optimised cost. `RouteGraph.SortedRouteSavesNothing` shows it is 0 for a route already in alphabetical order |
| RouteGraph.EmptyRouteCosts | src/components/RouteGraph.tsx:27-46 | An empty route is charged its depot-to-depot edge as optimised cost but 0 as alphabetical cost |
| RouteGraph.SavingsPercent | src/components/RouteGraph.tsx:48-49 | The percentage is the text "0" exactly when the alphabetical cost is not positive; otherwise it is the savings as a percentage of it |
| RouteGraph.RouteIndex | src/components/RouteGraph.tsx:113-115 | The depot is numbered 0, a label on the route gets its first position plus one, and any other node gets 0 |
| RouteGraph.NumberedIffOnTour | src/components/RouteGraph.tsx:113-115 | A node is drawn as on the tour exactly when it is the depot or has a positive number |
| Strings.StrLeCharacterised | src/components/RouteGraph.tsx:39 | The default sort's comparison (`Strings.StrLe`) puts `a` first exactly when `a` is a prefix of `b` or, at the first position where they differ, `a` has the smaller character |
| Strings.Sort | src/components/RouteGraph.tsx:39 | The sorted copy has the same labels and is in lexicographic order |
| Strings.SortedUnique | src/components/RouteGraph.tsx:39 | Two sorted arrangements of the same labels are equal |
| Strings.SortedArrangementUnique | src/components/RouteGraph.tsx:39 | Every sorted arrangement of a list of labels is the one the sort returns |
| WorkOrders.BilledQuantity | src/app/api/workorders/route.ts:58 | A line is billed for at least one unit, and for its quantity when that is at least one |
| WorkOrders.StoredQuantity | src/app/api/workorders/route.ts:74 | A line is stored with its quantity, or 1 when the quantity is 0 |
| WorkOrders.StoredMatchesBilled | src/app/api/workorders/route.ts:58-74 | The stored quantity equals the billed quantity exactly when the requested quantity is not negative |
| WorkOrders.LineAmount | src/app/api/workorders/route.ts:55-58 | A line costs its item's unit price times its billed quantity, or 0 when the price query did not return the item |
| WorkOrders.SubtotalAppend | src/app/api/workorders/route.ts:58 | The total of two lists of lines is the sum of their totals |
| WorkOrders.SubtotalBounds | src/app/api/workorders/route.ts:58 | With non-negative prices, the items' total is at least the amount of each line, which is itself non-negative |
| WorkOrders.UnknownItemsCostNothing | src/app/api/workorders/route.ts:55-58 | Lines whose items are all unknown cost nothing |
| WorkOrders.Subtotal | src/app/api/workorders/route.ts:51-58 | The left `reduce` over the lines. `WorkOrders.SubtotalAppend`, `WorkOrders.SubtotalBounds` and `WorkOrders.UnknownItemsCostNothing` state its properties |
| WorkOrders.ItemsSubtotal | src/app/api/workorders/route.ts:51-59 | 0 when there are no lines; otherwise the lines' subtotal |
| WorkOrders.FeeAmount | src/app/api/workorders/route.ts:60-62 | The fee adds its value when that is a non-negative number, and nothing for a negative, `NaN` or missing fee |
| WorkOrders.TotalAmount | src/app/api/workorders/route.ts:50-62 | The invoice total is the items' total plus any non-negative fee, and never less than the items' total |
| WorkOrders.StoredLines | src/app/api/workorders/route.ts:73-75 | One stored line per requested line, with the same item and the stored quantity |
| WorkOrders.Create | src/app/api/workorders/route.ts:46-76 | The handler fails with 400 exactly when the title or customer id is missing or empty. Otherwise it creates a PENDING order (MEDIUM priority by default) with a PENDING billing row for the invoice total. The title, description, customer, date, technician and lines come from the request |
| Billing.Merge | src/app/api/billing/route.ts:29-37 | An update takes the amount and status when given; it keeps the invoice number when missing, clears it on `null` and replaces it otherwise; nothing else changes |
| Billing.Create | src/app/api/billing/route.ts:38-45 | A new row has amount 0, status PENDING and no invoice number unless the body gives them |
| Billing.Upsert | src/app/api/billing/route.ts:25-45 | The handler fails with 400 exactly when the work order id is missing or empty; otherwise it updates the existing row or creates one |
| Billing.MergeIdempotent | src/app/api/billing/route.ts:29-37 | Applying the same update twice is applying it once |
| Billing.EmptyUpdateKeepsRecord | src/app/api/billing/route.ts:32-36 | A body carrying only the work order id leaves the row unchanged |
| Billing.UpsertIdempotent | src/app/api/billing/route.ts:28-45 | Posting the same body again, against the row the first post left, returns that row |
| Billing.CreateIsMergeIntoDefault | src/app/api/billing/route.ts:29-45 | Creating a row is the same as updating an all-default row |

## Left out

- The database (Prisma): every query becomes a parameter and every write a returned record. The status filter and date window of the order query are left out, and so are the 500 answers for database or runtime failures.
- JSON parsing and `NextResponse`: requests and answers are datatypes.
- Date arithmetic: `new Date`, `setUTCHours` and `toISODate` are left out; the day is an integer and appointment times are integer milliseconds.
- The display labels of the answer (`routeLabels`: the address label, the customer name's initial, `"?"`). They affect no stored value.
- Labels.ExtractLabel: only ASCII letters count as letters and word characters. This matches the JavaScript regexes, which have the `i` flag but not the `u` flag.
- A JSON `null` depot label: only a missing label defaults to `"Z"` (route.ts:139). When the day has orders and no cache hit, the fill loop (route.ts:254-262) passes `null` to `generateDefaultFuelCost`. Reading its `.length` (route.ts:36) throws, and the catch answers 500 (route.ts:381-385). The model treats `null` as missing and uses `"Z"`. Labels that clash with JavaScript object prototype keys (`"constructor"`, `"__proto__"`) are also left out, and so are inventory ids that do (workorders/route.ts:55-58).
- Optimizer.ServiceTime: it gives 30 minutes for a missing or JSON `null` per-job service time. In the source, only a missing value defaults to 30 (route.ts:139). A `null` counts as 0 service minutes in the cached answer (route.ts:221) and the solved one (route.ts:315).
- `NaN`, infinities and non-integer values for the per-job service time, quantities and prices: amounts are exact reals and quantities integers. There is no floating-point rounding.
- WorkOrders.LineAmount: an id the price query did not return costs 0. In the source, `priceById` is a plain object, so an id naming an `Object.prototype` property (`"constructor"`, `"toString"`, `"__proto__"`) reads that property instead of 0. The line amount and the total then become `NaN` (workorders/route.ts:55-58). The same holds for WorkOrders.UnknownItemsCostNothing.
- Strings.Sort: it compares labels by Unicode code point, while JavaScript compares UTF-16 code units. The two orders differ only for characters outside the Basic Multilingual Plane.
- `toFixed` formatting of the savings percentage, and the SVG drawing of the route graph.
- WorkOrders.Create: it copies the requested date through unchanged. The source converts it with `new Date` and drops a falsy one (workorders/route.ts:69); both are date handling, which is left out.
- Concurrency: two requests racing on the same schedule or billing row.
- The GET handlers and all other endpoints.
- Solver.SolveTour: it takes the size of the cost matrix as the number of nodes. The handler always passes a node list of that size. The handler always has at least one order plus the depot, so the early returns for zero and one node (route.ts:81-82) are modelled but never reached from it.
- TwoOpt.Improve: it requires a symmetric matrix, and so does Solver.SolveTour. On an asymmetric matrix the source's 2-opt loop need not stop (`Scenario.LopsidedTwoOptCycles`), so no cost bound holds there. The handler's matrix is always symmetric (`CostMatrix.ForDay`).

=== FILE: billing.dfy ===
/** The billing upsert: create a billing row for a work order, or merge the
    provided fields into the existing one. */
module Billing {
  import opened Common

  datatype BillingStatus = Pending | Paid | Cancelled

  /** A field of a JSON body: missing, an explicit `null`, or a value. */
  datatype Field<+T> = Undefined | Null | Value(v: T) {
    /** The `??` operator: both `null` and `undefined` fall back. */
    function Coalesce(default: T): T {
      match this
      case Value(v) => v
      case _ => default
    }
  }

  /** One billing row; `invoiceNumber` is a nullable column. */
  datatype BillingRecord = BillingRecord(
    workOrderId: string,
    totalAmount: real,
    status: BillingStatus,
    invoiceNumber: Option<string>)

  datatype BillingRequest = BillingRequest(
    workOrderId: Option<string>,
    totalAmount: Field<real>,
    status: Field<BillingStatus>,
    invoiceNumber: Field<string>)

  /** The update: amount and status take the provided value unless it is
      `null` or missing; the invoice number is kept when missing, cleared by
      `null` and replaced by a string. Nothing else changes. */
  function Merge(req: BillingRequest, e: BillingRecord): (r: BillingRecord)
    ensures r.workOrderId == e.workOrderId
    ensures req.totalAmount.Value? ==> r.totalAmount == req.totalAmount.v
    ensures !req.totalAmount.Value? ==> r.totalAmount == e.totalAmount
    ensures req.status.Value? ==> r.status == req.status.v
    ensures !req.status.Value? ==> r.status == e.status
    ensures req.invoiceNumber.Undefined? ==> r.invoiceNumber == e.invoiceNumber
    ensures req.invoiceNumber.Null? ==> r.invoiceNumber == None
    ensures req.invoiceNumber.Value? ==> r.invoiceNumber == Some(req.invoiceNumber.v)
  {
    e.(
      totalAmount := req.totalAmount.Coalesce(e.totalAmount),
      status := req.status.Coalesce(e.status),
      invoiceNumber :=
        match req.invoiceNumber
        case Undefined => e.invoiceNumber
        case Null => None
        case Value(n) => Some(n))
  }

  /** The new row: amount 0, status PENDING and no invoice number unless
      provided. */
  function Create(workOrderId: string, req: BillingRequest): (r: BillingRecord)
    ensures r.workOrderId == workOrderId
    ensures r.totalAmount == (if req.totalAmount.Value? then req.totalAmount.v else 0.0)
    ensures r.status == (if req.status.Value? then req.status.v else Pending)
    ensures r.invoiceNumber == (if req.invoiceNumber.Value? then Some(req.invoiceNumber.v) else None)
  {
    BillingRecord(
      workOrderId,
      req.totalAmount.Coalesce(0.0),
      req.status.Coalesce(Pending),
      match req.invoiceNumber
      case Value(n) => Some(n)
      case _ => None)
  }

  /** The POST handler, given the row already stored for the work order. */
  function Upsert(req: BillingRequest, existing: Option<BillingRecord>): (r: Result<BillingRecord, Failure>)
    ensures r.Err? <==> !Present(req.workOrderId)
    ensures r.Err? ==> r.error == BadRequest("workOrderId is required") && r.error.Status() == 400
    ensures r.Ok? && existing.Some? ==> r.value == Merge(req, existing.value)
    ensures r.Ok? && existing.None? ==> r.value == Create(req.workOrderId.value, req)
  {
    if !Present(req.workOrderId) then Err(BadRequest("workOrderId is required"))
    else match existing
      case Some(e) => Ok(Merge(req, e))
      case None => Ok(Create(req.workOrderId.value, req))
  }

  /** Applying the same update twice is applying it once. */
  lemma MergeIdempotent(req: BillingRequest, e: BillingRecord)
    ensures Merge(req, Merge(req, e)) == Merge(req, e)
  {
  }

  /** A body carrying nothing but the work order id changes nothing. */
  lemma EmptyUpdateKeepsRecord(e: BillingRecord, workOrderId: Option<string>)
    ensures Merge(BillingRequest(workOrderId, Undefined, Undefined, Undefined), e) == e
  {
  }

  /** Posting the same body again, against the row the first post left, gives
      back that row. */
  lemma UpsertIdempotent(req: BillingRequest, existing: Option<BillingRecord>)
    requires Upsert(req, existing).Ok?
    ensures Upsert(req, Some(Upsert(req, existing).value)) == Upsert(req, existing)
  {
  }

  /** The new row is the update of an all-default row. */
  lemma CreateIsMergeIntoDefault(workOrderId: string, req: BillingRequest)
    ensures Create(workOrderId, req) == Merge(req, BillingRecord(workOrderId, 0.0, Pending, None))
  {
  }
}

=== FILE: common.dfy ===
/** Shared vocabulary of the model: optional values, request failures and a few
    facts about finite sets and sequences that several modules rely on. */
module Common {

  /** A value that may be absent (JavaScript `undefined` / `null`). */
  datatype Option<+T> = None | Some(value: T) {
    /** The `??` operator: the value, or `default` when absent. */
    function GetOr(default: T): T {
      match this
      case Some(v) => v
      case None => default
    }
  }

  /** The outcome of a request handler: a value or an HTTP failure. */
  datatype Result<+T, +E> = Ok(value: T) | Err(error: E)

  /** The 4xx answers the modelled handlers give; everything that would be a
      500 comes from the database or the runtime and is not modelled. */
  datatype Failure = BadRequest(message: string) | NotFound(message: string) {
    function Status(): int {
      match this
      case BadRequest(_) => 400
      case NotFound(_) => 404
    }
  }

  /** JavaScript truthiness of an optional string: absent and "" are falsy. */
  predicate Present(s: Option<string>) {
    s.Some? && s.value != ""
  }

  function Abs(x: int): nat {
    if x < 0 then -x else x
  }

  function Max(a: int, b: int): int {
    if a < b then b else a
  }

  /** The node indices 0 .. n-1. */
  function Nodes(n: nat): (r: set<nat>)
    ensures forall i: nat :: i in r <==> i < n
  {
    RangeMembers(n);
    set i | i in Range(n)
  }

  lemma {:induction false} RangeMembers(n: nat)
    ensures forall i: nat :: i in Range(n) <==> i < n
  {
    if n > 0 {
      RangeMembers(n - 1);
      assert Range(n) == Range(n - 1) + [n - 1];
    }
  }

  /** The sequence [0, 1, ..., n-1]. */
  function Range(n: nat): (r: seq<nat>)
    ensures |r| == n
    ensures forall i | 0 <= i < n :: r[i] == i
  {
    if n == 0 then [] else Range(n - 1) + [n - 1]
  }

  /** `indexOf`: the first index of `x` in `s`, or -1. */
  function IndexOf<T(==)>(s: seq<T>, x: T): (k: int)
    ensures -1 <= k < |s|
    ensures k >= 0 ==> s[k] == x && x !in s[..k]
    ensures k == -1 <==> x !in s
  {
    if s == [] then -1
    else if s[0] == x then 0
    else
      var k := IndexOf(s[1..], x);
      assert s == [s[0]] + s[1..];
      if k == -1 then -1 else k + 1
  }

  /** The set of elements of a sequence. */
  function Elems<T>(s: seq<T>): set<T> {
    set x | x in s
  }

  /** Every element of `s` is a valid index below `n`. */
  predicate InBounds(s: seq<nat>, n: nat) {
    forall k | 0 <= k < |s| :: s[k] < n
  }

  lemma {:induction false} NodesCard(n: nat)
    ensures |Nodes(n)| == n
  {
    if n > 0 {
      NodesCard(n - 1);
      assert Nodes(n) == Nodes(n - 1) + {n - 1};
    } else {
      assert Nodes(0) == {};
    }
  }

  lemma {:induction false} SubsetCard<T>(a: set<T>, b: set<T>)
    requires a <= b
    ensures |a| <= |b|
    decreases a
  {
    if a != {} {
      var x :| x in a;
      SubsetCard(a - {x}, b - {x});
    }
  }

  /** A subset at least as large as its superset is the superset. */
  lemma SubsetSameCard<T>(a: set<T>, b: set<T>)
    requires a <= b
    requires |a| >= |b|
    ensures a == b
  {
    if a != b {
      var x :| x in b && x !in a;
      SubsetCard(a, b - {x});
    }
  }

  lemma RangeElems(n: nat)
    ensures multiset(Range(n)) == multiset(Nodes(n))
  {
    forall x
      ensures multiset(Range(n))[x] == multiset(Nodes(n))[x]
    {
      if x in Range(n) {
        var k :| 0 <= k < n && Range(n)[k] == x;
        DistinctCount(Range(n), k);
      }
    }
  }

  /** In a sequence whose elements are strictly increasing, each occurs once. */
  lemma {:induction false} DistinctCount(s: seq<nat>, k: nat)
    requires forall i, j | 0 <= i < j < |s| :: s[i] < s[j]
    requires k < |s|
    ensures multiset(s)[s[k]] == 1
  {
    if |s| > 0 {
      assert s == [s[0]] + s[1..];
      if k == 0 {
        assert s[0] !in s[1..];
      } else {
        DistinctCount(s[1..], k - 1);
        assert s[1..][k - 1] == s[k];
      }
    }
  }

  /** The image of a sequence under `f`, element by element. */
  function MapSeq<A, B>(f: A -> B, s: seq<A>): (r: seq<B>)
    ensures |r| == |s|
    ensures forall k | 0 <= k < |s| :: r[k] == f(s[k])
  {
    seq(|s|, k requires 0 <= k < |s| => f(s[k]))
  }

  lemma MapSeqAppend<A, B>(f: A -> B, a: seq<A>, b: seq<A>)
    ensures MapSeq(f, a + b) == MapSeq(f, a) + MapSeq(f, b)
  {
  }

  /** Removing the element at `k` removes one occurrence of it. */
  lemma MultisetRemove<T>(b: seq<T>, k: nat)
    requires k < |b|
    ensures multiset(b[..k] + b[k + 1..]) == multiset(b) - multiset{b[k]}
  {
    assert b == b[..k] + [b[k]] + b[k + 1..];
  }

  lemma MapSeqRemove<A, B>(f: A -> B, b: seq<A>, k: nat)
    requires k < |b|
    ensures multiset(MapSeq(f, b)) == multiset(MapSeq(f, b[..k] + b[k + 1..])) + multiset{f(b[k])}
  {
    var mb := MapSeq(f, b);
    var c := b[..k] + b[k + 1..];
    var mc := MapSeq(f, c);
    forall t | 0 <= t < |mc|
      ensures mc[t] == (mb[..k] + mb[k + 1..])[t]
    {
      if t < k {
        assert c[t] == b[t];
      } else {
        assert c[t] == b[t + 1];
      }
    }
    assert mc == mb[..k] + mb[k + 1..];
    MultisetRemove(mb, k);
    assert mb[k] in multiset(mb);
  }

  /** Mapping two permutations of each other yields permutations of each other. */
  lemma {:induction false} MapSeqPermutation<A, B>(f: A -> B, a: seq<A>, b: seq<A>)
    requires multiset(a) == multiset(b)
    ensures multiset(MapSeq(f, a)) == multiset(MapSeq(f, b))
    decreases |a|
  {
    if a != [] {
      var x := a[0];
      assert x in multiset(a);
      var k :| 0 <= k < |b| && b[k] == x;
      var a', b' := a[1..], b[..k] + b[k + 1..];
      assert multiset(a') == multiset(b') by {
        assert a == [x] + a';
        MultisetRemove(b, k);
      }
      MapSeqPermutation(f, a', b');
      MapSeqRemove(f, b, k);
      MapSeqRemove(f, a, 0);
      assert a[..0] + a[1..] == a';
    }
  }
}

=== FILE: cost_matrix.dfy ===
/** The cost matrix of one optimisation: one node per job, in order, and the
    depot as the last node. */
module CostMatrix {
  import opened Common
  import opened FuelCost
  import opened Matrices

  /** The matrix loop: 0 on the diagonal, the table lookup of the two labels
      everywhere else. */
  function Build(labels: seq<string>, edges: EdgeTable): (m: Matrix)
    ensures |m| == |labels| && ZeroDiagonal(m)
    ensures forall i, j | 0 <= i < |m| && 0 <= j < |m| && i != j :: m[i][j] == Lookup(labels[i], labels[j], edges)
  {
    seq(|labels|, i requires 0 <= i < |labels| =>
      seq(|labels|, j requires 0 <= j < |labels| =>
        if i == j then 0 else Lookup(labels[i], labels[j], edges)))
  }

  /** The labels of the matrix nodes: the jobs' labels, then the depot's, so
      the depot's index is the number of jobs. */
  function NodeLabels(jobLabels: seq<string>, depot: string): (l: seq<string>)
    ensures |l| == |jobLabels| + 1 && l[|jobLabels|] == depot
    ensures forall k | 0 <= k < |jobLabels| :: l[k] == jobLabels[k]
  {
    jobLabels + [depot]
  }

  /** The label set that the fill loop completes is the depot's label together
      with every job's. */
  lemma NodeLabelSet(jobLabels: seq<string>, depot: string)
    ensures Elems(NodeLabels(jobLabels, depot)) == Elems(jobLabels) + {depot}
  {
  }

  /** The optimiser's matrix for a day: built over the built-in table after it
      has been filled in for every label of the day. It is symmetric with a zero
      diagonal, every other entry is the table cost of the two labels and is at
      least 20. */
  function ForDay(jobLabels: seq<string>, depot: string): (m: Matrix)
    ensures |m| == |jobLabels| + 1
    ensures Symmetric(m) && ZeroDiagonal(m)
    ensures forall i, j | 0 <= i < |m| && 0 <= j < |m| && i != j ::
      m[i][j] == TableCost(DefaultEdges, NodeLabels(jobLabels, depot)[i], NodeLabels(jobLabels, depot)[j])
    ensures forall i, j | 0 <= i < |m| && 0 <= j < |m| && i != j :: m[i][j] >= 20
  {
    var labels := NodeLabels(jobLabels, depot);
    var m := Build(labels, Fill(DefaultEdges, Elems(labels)));
    FilledEntries(labels);
    m
  }

  /** The entries of the matrix over the filled table, for any label list. */
  lemma FilledEntries(labels: seq<string>)
    ensures var m := Build(labels, Fill(DefaultEdges, Elems(labels)));
      && Symmetric(m)
      && forall i, j | 0 <= i < |m| && 0 <= j < |m| && i != j ::
        m[i][j] == TableCost(DefaultEdges, labels[i], labels[j]) >= 20
  {
    var day := Elems(labels);
    var m := Build(labels, Fill(DefaultEdges, day));
    DefaultEdgesWellFormed();
    forall i, j | 0 <= i < |m| && 0 <= j < |m| && i != j
      ensures m[i][j] == TableCost(DefaultEdges, labels[i], labels[j]) >= 20
      ensures m[i][j] == m[j][i]
    {
      LookupFilled(DefaultEdges, day, labels[i], labels[j]);
      LookupFilled(DefaultEdges, day, labels[j], labels[i]);
      TableCostSymmetric(DefaultEdges, labels[i], labels[j]);
      TableCostAtLeast20(DefaultEdges, labels[i], labels[j]);
    }
  }

  /** Two different jobs at the same lettered location cost 20 to each other. */
  lemma SharedLetterCosts20(jobLabels: seq<string>, depot: string, i: nat, j: nat)
    requires i < |jobLabels| + 1 && j < |jobLabels| + 1 && i != j
    requires NodeLabels(jobLabels, depot)[i] == NodeLabels(jobLabels, depot)[j]
    requires SingleLetter(NodeLabels(jobLabels, depot)[i])
    ensures ForDay(jobLabels, depot)[i][j] == 20
  {
    var l := NodeLabels(jobLabels, depot)[i];
    DefaultFuelCostFormula(l, l);
  }

  /** A node whose label is not a single letter, such as a `C<k>` fallback label,
      costs 50 to every other node. */
  lemma NonLetterCosts50(jobLabels: seq<string>, depot: string, i: nat, j: nat)
    requires i < |jobLabels| + 1 && j < |jobLabels| + 1 && i != j
    requires !SingleLetter(NodeLabels(jobLabels, depot)[i])
    ensures ForDay(jobLabels, depot)[i][j] == 50
  {
    var labels := NodeLabels(jobLabels, depot);
    NonLetterNotStored(labels[i]);
    DefaultFuelCostFormula(labels[i], labels[j]);
  }

  /** The built-in table only has single-letter rows. */
  lemma NonLetterNotStored(l: string)
    requires !SingleLetter(l)
    ensures l !in DefaultEdges
  {
    StoredRowsAreLetters();
  }

  lemma StoredRowsAreLetters()
    ensures forall a | a in DefaultEdges :: SingleLetter(a)
  {
    DefaultEdgesLabels();
    forall a | a in DefaultEdges
      ensures SingleLetter(a)
    {
      assert a == "Z" || a == "A" || a == "B" || a == "C" || a == "D" || a == "E";
    }
  }
}

=== FILE: date_override.dfy ===
/** The scheduled-date override: when any order carries an appointment time,
    all orders are sorted by that time (missing times last) and, among equal
    times, by their position in the solved route. */
module DateOverride {
  import opened Common
  import opened Jobs

  /** One element of the array being sorted: the order's id, its appointment
      time and the index of the order in the solved route (`indexOf`, -1 when
      absent). */
  datatype Entry = Entry(id: string, date: Option<int>, routeIdx: int)

  /** `a` is strictly earlier than `b` when a missing time counts as +infinity. */
  predicate DateBefore(a: Option<int>, b: Option<int>) {
    a.Some? && (b.None? || a.value < b.value)
  }

  /** The sign of the comparator: the difference of the times when they differ
      (`Infinity === Infinity`, so two missing times are equal), otherwise the
      difference of the route positions. */
  function Compare(a: Entry, b: Entry): (c: int)
    ensures c == -1 || c == 0 || c == 1
    ensures c < 0 <==> DateBefore(a.date, b.date) || (a.date == b.date && a.routeIdx < b.routeIdx)
  {
    if a.date != b.date then (if DateBefore(a.date, b.date) then -1 else 1)
    else if a.routeIdx < b.routeIdx then -1
    else if a.routeIdx == b.routeIdx then 0
    else 1
  }

  predicate Le(a: Entry, b: Entry) {
    Compare(a, b) <= 0
  }

  lemma CompareFlip(a: Entry, b: Entry)
    ensures Compare(b, a) == -Compare(a, b)
  {
  }

  lemma LeTransitive(a: Entry, b: Entry, c: Entry)
    requires Le(a, b) && Le(b, c)
    ensures Le(a, c)
  {
  }

  predicate Sorted(s: seq<Entry>) {
    forall i, j | 0 <= i < j < |s| :: Le(s[i], s[j])
  }

  /** Insert `e` before the first element it does not follow. */
  function Insert(e: Entry, s: seq<Entry>): (r: seq<Entry>)
    ensures multiset(r) == multiset(s) + multiset{e}
  {
    if s == [] || Le(e, s[0]) then [e] + s
    else
      assert s == [s[0]] + s[1..];
      [s[0]] + Insert(e, s[1..])
  }

  lemma {:induction false} InsertSorted(e: Entry, s: seq<Entry>)
    requires Sorted(s)
    ensures Sorted(Insert(e, s))
  {
    var r := Insert(e, s);
    if s == [] || Le(e, s[0]) {
      forall k | 0 <= k < |s| ensures Le(e, s[k]) {
        if k > 0 { LeTransitive(e, s[0], s[k]); }
      }
      assert forall k | 0 < k < |r| :: r[k] == s[k - 1];
    } else {
      var rest := Insert(e, s[1..]);
      InsertSorted(e, s[1..]);
      CompareFlip(e, s[0]);
      assert s == [s[0]] + s[1..];
      forall k | 0 <= k < |rest| ensures Le(s[0], rest[k]) {
        assert rest[k] in multiset(rest);
        if rest[k] != e {
          assert rest[k] in multiset(s[1..]);
          var q :| 0 <= q < |s[1..]| && s[1..][q] == rest[k];
          assert s[q + 1] == rest[k];
        }
      }
      assert r == [s[0]] + rest;
      assert forall k | 0 < k < |r| :: r[k] == rest[k - 1];
    }
  }

  /** Insertion sort; stable, like `Array.prototype.sort`. */
  function Sort(s: seq<Entry>): (r: seq<Entry>)
    ensures multiset(r) == multiset(s)
    ensures Sorted(r)
  {
    if s == [] then []
    else
      assert s == [s[0]] + s[1..];
      InsertSorted(s[0], Sort(s[1..]));
      Insert(s[0], Sort(s[1..]))
  }

  /** The route positions of the entries are pairwise distinct. */
  predicate DistinctPositions(s: seq<Entry>) {
    forall i, j | 0 <= i < j < |s| :: s[i].routeIdx != s[j].routeIdx
  }

  /** Entries of `s` that share a route position are the same entry. */
  predicate PositionsIdentify(s: seq<Entry>) {
    forall x, y | x in s && y in s && x.routeIdx == y.routeIdx :: x == y
  }

  lemma DistinctPositionsPermutation(a: seq<Entry>, b: seq<Entry>)
    requires multiset(a) == multiset(b)
    requires DistinctPositions(a)
    ensures PositionsIdentify(b)
  {
    forall x, y | x in b && y in b && x.routeIdx == y.routeIdx
      ensures x == y
    {
      assert x in multiset(a) && y in multiset(a);
      var i :| 0 <= i < |a| && a[i] == x;
      var j :| 0 <= j < |a| && a[j] == y;
      assert i == j;
    }
  }

  /** The first elements of two sorted arrangements of the same entries agree. */
  lemma SortedSameHead(a: seq<Entry>, b: seq<Entry>)
    requires multiset(a) == multiset(b) && a != []
    requires Sorted(a) && Sorted(b)
    requires PositionsIdentify(a)
    ensures b != [] && a[0] == b[0]
  {
    assert a[0] in multiset(b);
    assert b[0] in multiset(a);
    var i :| 0 <= i < |b| && b[i] == a[0];
    var j :| 0 <= j < |a| && a[j] == b[0];
    assert Le(b[0], a[0]) by { if i > 0 { assert Le(b[0], b[i]); } }
    assert Le(a[0], b[0]) by { if j > 0 { assert Le(a[0], a[j]); } }
    assert a[0].routeIdx == b[0].routeIdx;
    assert b[0] in a;
  }

  /** Two sorted arrangements of the same entries, when entries sharing a route
      position are equal, are the same sequence: the comparator is then a strict
      total order on them, so the sort's result does not depend on the
      algorithm. */
  lemma {:induction false} SortedUnique(a: seq<Entry>, b: seq<Entry>)
    requires multiset(a) == multiset(b)
    requires Sorted(a) && Sorted(b)
    requires PositionsIdentify(a)
    ensures a == b
    decreases |a|
  {
    if a == [] {
      assert |b| == |multiset(b)| == 0;
    } else {
      SortedSameHead(a, b);
      assert a == [a[0]] + a[1..];
      assert b == [b[0]] + b[1..];
      assert multiset(a[1..]) == multiset(b[1..]) by {
        assert multiset(a[1..]) == multiset(a) - multiset{a[0]};
        assert multiset(b[1..]) == multiset(b) - multiset{b[0]};
      }
      assert PositionsIdentify(a[1..]) by {
        forall x | x in a[1..] ensures x in a { }
      }
      SortedUnique(a[1..], b[1..]);
    }
  }

  /** In a sorted sequence the dated entries come first, in nondecreasing date
      order. */
  lemma SortedDatesFirst(s: seq<Entry>, i: nat, j: nat)
    requires Sorted(s)
    requires i < j < |s|
    requires s[j].date.Some?
    ensures s[i].date.Some? && s[i].date.value <= s[j].date.value
  {
    assert Le(s[i], s[j]);
  }

  /** The array being sorted: order `i` with its position in `route`. */
  function Entries(orders: seq<Order>, route: seq<nat>): (es: seq<Entry>)
    ensures |es| == |orders|
    ensures forall k | 0 <= k < |orders| ::
      es[k] == Entry(orders[k].id, orders[k].scheduledDate, IndexOf(route, k))
  {
    seq(|orders|, k requires 0 <= k < |orders| =>
      Entry(orders[k].id, orders[k].scheduledDate, IndexOf(route, k)))
  }

  /** `withScheduledDates.every(w => !w.o.scheduledDate)`: a date object is
      always truthy, so this holds exactly when no order has a time. */
  predicate NoneDated(orders: seq<Order>) {
    forall k | 0 <= k < |orders| :: orders[k].scheduledDate.None?
  }

  /** The test is made on the sorted array; sorting keeps the entries, so it
      holds exactly when no sorted entry carries a time. */
  lemma NoneDatedSorted(orders: seq<Order>, route: seq<nat>)
    ensures NoneDated(orders) <==> forall e | e in Sort(Entries(orders, route)) :: e.date.None?
  {
    var es := Entries(orders, route);
    var s := Sort(es);
    if NoneDated(orders) {
      forall e | e in s
        ensures e.date.None?
      {
        assert e in multiset(es);
        var k :| 0 <= k < |es| && es[k] == e;
      }
    } else {
      var k :| 0 <= k < |orders| && orders[k].scheduledDate.Some?;
      assert es[k] in multiset(s);
    }
  }

  function EntryId(e: Entry): string {
    e.id
  }

  /** The final visiting order from the solved route (`route`, indices into
      `orders`) and the route's ids (`routeOrder`). */
  function FinalOrder(orders: seq<Order>, route: seq<nat>, routeOrder: seq<string>): (r: seq<string>)
    ensures NoneDated(orders) ==> r == routeOrder
    ensures !NoneDated(orders) ==>
      exists t :: Sorted(t) && multiset(t) == multiset(Entries(orders, route)) && r == MapSeq(EntryId, t)
  {
    if NoneDated(orders) then routeOrder
    else MapSeq(EntryId, Sort(Entries(orders, route)))
  }

  /** A permutation of the order indices gives every order a distinct position. */
  lemma EntriesDistinct(orders: seq<Order>, route: seq<nat>)
    requires multiset(route) == multiset(Nodes(|orders|))
    ensures DistinctPositions(Entries(orders, route))
  {
    var es := Entries(orders, route);
    forall i, j | 0 <= i < j < |es|
      ensures es[i].routeIdx != es[j].routeIdx
    {
      assert i in multiset(route) && j in multiset(route);
      assert IndexOf(route, i) >= 0;
    }
  }

  lemma EntryIds(orders: seq<Order>, route: seq<nat>)
    ensures MapSeq(EntryId, Entries(orders, route)) == Ids(orders)
  {
  }

  /** The dated branch's order is the ids of the one sorted arrangement of the
      entries: any sequence `t` of the entries sorted by the comparator gives the
      same ids. Its dated orders come first, by nondecreasing time. */
  lemma DatedOrderCharacterised(orders: seq<Order>, route: seq<nat>, t: seq<Entry>)
    requires multiset(route) == multiset(Nodes(|orders|))
    requires !NoneDated(orders)
    requires multiset(t) == multiset(Entries(orders, route)) && Sorted(t)
    ensures FinalOrder(orders, route, []) == MapSeq(EntryId, t)
    ensures multiset(FinalOrder(orders, route, [])) == multiset(Ids(orders))
  {
    var es := Entries(orders, route);
    EntriesDistinct(orders, route);
    DistinctPositionsPermutation(es, Sort(es));
    SortedUnique(Sort(es), t);
    MapSeqPermutation(EntryId, Sort(es), es);
    EntryIds(orders, route);
  }

  /** When order `k` is the only one with an appointment time, it comes first. */
  lemma OnlyDatedFirst(orders: seq<Order>, route: seq<nat>, routeOrder: seq<string>, k: nat)
    requires k < |orders|
    requires orders[k].scheduledDate.Some?
    requires forall q | 0 <= q < |orders| && q != k :: orders[q].scheduledDate.None?
    ensures |FinalOrder(orders, route, routeOrder)| == |orders|
    ensures FinalOrder(orders, route, routeOrder)[0] == orders[k].id
  {
    var es := Entries(orders, route);
    var s := Sort(es);
    assert es[k] in multiset(s);
    var p :| 0 <= p < |s| && s[p] == es[k];
    assert s[0] in multiset(es);
    var q :| 0 <= q < |es| && es[q] == s[0];
    if p > 0 {
      SortedDatesFirst(s, 0, p);
    }
  }
}

=== FILE: fuel_cost.dfy ===
/** The optimiser's fuel-cost model: the synthetic cost of a pair of labels,
    the lookup in a sparse edge table, the built-in edge table, and the way the
    optimiser fills that table in for the labels of the day. */
module FuelCost {
  import opened Common
  import opened Labels

  /** `edges[from][to]` is the cost of travelling from `from` to `to`. */
  type EdgeTable = map<string, map<string, int>>

  /** A label that `/^[A-Z]$/i` accepts. */
  predicate SingleLetter(l: string) {
    |l| == 1 && IsLetter(l[0])
  }

  /** The character code of a single-letter label, upper-cased. */
  function LetterCode(l: string): int
    requires SingleLetter(l)
  {
    Upper(l[0]) as int
  }

  /** `generateDefaultFuelCost`, branch for branch. The second branch, meant for
      the depot, is dead: see `DepotBranchUnreachable`. */
  function DefaultFuelCost(from: string, to: string): int {
    if SingleLetter(from) && SingleLetter(to) then
      20 + 10 * Abs(LetterCode(from) - LetterCode(to))
    else if (from == "Z" || to == "Z") && from != to then
      var letter := if from == "Z" then to else from;
      if SingleLetter(letter) then 40 + 10 * (LetterCode(letter) - 65) else 50
    else
      50
  }

  /** Whenever the depot branch is entered, the other label is not a single
      letter, so the branch always falls through to the constant 50. */
  lemma DepotBranchUnreachable(from: string, to: string)
    requires !(SingleLetter(from) && SingleLetter(to))
    requires (from == "Z" || to == "Z") && from != to
    ensures !SingleLetter(if from == "Z" then to else from)
  {
    assert SingleLetter("Z");
  }

  /** The synthetic cost is the letter distance for two single letters and 50
      for anything else; it is symmetric and at least 20. */
  lemma DefaultFuelCostFormula(from: string, to: string)
    ensures DefaultFuelCost(from, to) ==
      if SingleLetter(from) && SingleLetter(to)
      then 20 + 10 * Abs(LetterCode(from) - LetterCode(to))
      else 50
    ensures DefaultFuelCost(from, to) == DefaultFuelCost(to, from)
    ensures DefaultFuelCost(from, to) >= 20
  {
    if !(SingleLetter(from) && SingleLetter(to)) && (from == "Z" || to == "Z") && from != to {
      DepotBranchUnreachable(from, to);
    }
    if !(SingleLetter(to) && SingleLetter(from)) && (to == "Z" || from == "Z") && to != from {
      DepotBranchUnreachable(to, from);
    }
  }

  /** `getFuelCost`: the direct edge, else the reverse edge, else the synthetic
      cost. */
  function Lookup(from: string, to: string, edges: EdgeTable): int {
    if from in edges && to in edges[from] then edges[from][to]
    else if to in edges && from in edges[to] then edges[to][from]
    else DefaultFuelCost(from, to)
  }

  /** The built-in edge table of the optimiser: depot `Z` and locations A-E. */
  const DefaultEdges: EdgeTable := map[
    "Z" := map["A" := 50, "B" := 60, "C" := 70, "D" := 80, "E" := 90],
    "A" := map["Z" := 50, "B" := 20, "C" := 40, "D" := 60, "E" := 80],
    "B" := map["Z" := 60, "A" := 20, "C" := 30, "D" := 50, "E" := 70],
    "C" := map["Z" := 70, "A" := 40, "B" := 30, "D" := 25, "E" := 50],
    "D" := map["Z" := 80, "A" := 60, "B" := 50, "C" := 25, "E" := 30],
    "E" := map["Z" := 90, "A" := 80, "B" := 70, "C" := 50, "D" := 30]
  ]

  /** Every edge is stored in both directions with the same cost. */
  predicate SymmetricTable(edges: EdgeTable) {
    forall a, b | a in edges && b in edges[a] :: b in edges && a in edges[b] && edges[b][a] == edges[a][b]
  }

  /** No label has an edge to itself. */
  predicate NoSelfEdges(edges: EdgeTable) {
    forall a | a in edges :: a !in edges[a]
  }

  /** Every stored cost is at least `lo`. */
  predicate CostsAtLeast(edges: EdgeTable, lo: int) {
    forall a, b | a in edges && b in edges[a] :: edges[a][b] >= lo
  }

  lemma DefaultEdgesWellFormed()
    ensures SymmetricTable(DefaultEdges)
    ensures NoSelfEdges(DefaultEdges)
    ensures CostsAtLeast(DefaultEdges, 20)
  {
    DefaultEdgesLabels();
    forall a, b | a in DefaultEdges && b in DefaultEdges[a]
      ensures b in DefaultEdges && a in DefaultEdges[b]
      ensures DefaultEdges[b][a] == DefaultEdges[a][b] >= 20
    {
      DefaultEdge(a, b);
    }
  }

  lemma DefaultEdgesLabels()
    ensures DefaultEdges.Keys == {"Z", "A", "B", "C", "D", "E"}
    ensures forall a | a in DefaultEdges :: DefaultEdges[a].Keys == {"Z", "A", "B", "C", "D", "E"} - {a}
  {
  }

  /** One stored edge of the built-in table. The rows are checked by separate
      lemmas, one per label, so that each proof sees a single row literal. */
  lemma DefaultEdge(a: string, b: string)
    requires a in DefaultEdges && b in DefaultEdges[a]
    ensures b in DefaultEdges && a in DefaultEdges[b]
    ensures DefaultEdges[b][a] == DefaultEdges[a][b] >= 20
  {
    DefaultEdgesLabels();
    if a == "Z" {
      DefaultRowZ(b);
    } else if a == "A" {
      DefaultRowA(b);
    } else if a == "B" {
      DefaultRowB(b);
    } else if a == "C" {
      DefaultRowC(b);
    } else if a == "D" {
      DefaultRowD(b);
    } else if a == "E" {
      DefaultRowE(b);
    }
  }

  lemma DefaultRowZ(b: string)
    requires b in DefaultEdges["Z"]
    ensures b in DefaultEdges && "Z" in DefaultEdges[b]
    ensures DefaultEdges[b]["Z"] == DefaultEdges["Z"][b] >= 20
  {
    DefaultEdgesLabels();
  }

  lemma DefaultRowA(b: string)
    requires b in DefaultEdges["A"]
    ensures b in DefaultEdges && "A" in DefaultEdges[b]
    ensures DefaultEdges[b]["A"] == DefaultEdges["A"][b] >= 20
  {
    DefaultEdgesLabels();
  }

  lemma DefaultRowB(b: string)
    requires b in DefaultEdges["B"]
    ensures b in DefaultEdges && "B" in DefaultEdges[b]
    ensures DefaultEdges[b]["B"] == DefaultEdges["B"][b] >= 20
  {
    DefaultEdgesLabels();
  }

  lemma DefaultRowC(b: string)
    requires b in DefaultEdges["C"]
    ensures b in DefaultEdges && "C" in DefaultEdges[b]
    ensures DefaultEdges[b]["C"] == DefaultEdges["C"][b] >= 20
  {
    DefaultEdgesLabels();
  }

  lemma DefaultRowD(b: string)
    requires b in DefaultEdges["D"]
    ensures b in DefaultEdges && "D" in DefaultEdges[b]
    ensures DefaultEdges[b]["D"] == DefaultEdges["D"][b] >= 20
  {
    DefaultEdgesLabels();
  }

  lemma DefaultRowE(b: string)
    requires b in DefaultEdges["E"]
    ensures b in DefaultEdges && "E" in DefaultEdges[b]
    ensures DefaultEdges[b]["E"] == DefaultEdges["E"][b] >= 20
  {
    DefaultEdgesLabels();
  }

  /** Row `l` after the fill loop: every other label of the day that has no
      (truthy) entry gets the synthetic cost. */
  function FillRow(edges: EdgeTable, labels: set<string>, l: string): map<string, int> {
    var base := if l in edges then edges[l] else map[];
    map o | o in base.Keys + (labels - {l}) ::
      if o in labels && o != l && (o !in base || base[o] == 0) then DefaultFuelCost(l, o) else base[o]
  }

  /** The table after the fill loop over all labels of the day (the depot label
      included). Each entry depends only on its own pair, so the order in which
      the loop visits the labels does not matter. */
  function Fill(edges: EdgeTable, labels: set<string>): EdgeTable {
    map l | l in edges.Keys + labels :: if l in labels then FillRow(edges, labels, l) else edges[l]
  }

  /** The cost the filled table yields for two labels of the day: the stored
      cost of a distinct pair when there is a non-zero one, otherwise the
      synthetic cost. */
  function TableCost(edges: EdgeTable, a: string, b: string): int {
    if a != b && a in edges && b in edges[a] && edges[a][b] != 0 then edges[a][b]
    else DefaultFuelCost(a, b)
  }

  /** Looking up two labels of the day in the filled table gives `TableCost`:
      a distinct pair always has a direct entry after the fill, and a label
      paired with itself has none in either direction. */
  lemma LookupFilled(edges: EdgeTable, labels: set<string>, a: string, b: string)
    requires NoSelfEdges(edges)
    requires a in labels && b in labels
    ensures Lookup(a, b, Fill(edges, labels)) == TableCost(edges, a, b)
  {
    var f := Fill(edges, labels);
    assert a in f && f[a] == FillRow(edges, labels, a);
    if a == b {
      assert a !in f[a];
    }
  }

  /** On a symmetric table the cost of a pair does not depend on direction. */
  lemma TableCostSymmetric(edges: EdgeTable, a: string, b: string)
    requires SymmetricTable(edges)
    ensures TableCost(edges, a, b) == TableCost(edges, b, a)
  {
    DefaultFuelCostFormula(a, b);
  }

  /** Stored costs of at least 20 and synthetic costs keep every pair at 20 or
      more. */
  lemma TableCostAtLeast20(edges: EdgeTable, a: string, b: string)
    requires CostsAtLeast(edges, 20)
    ensures TableCost(edges, a, b) >= 20
  {
    DefaultFuelCostFormula(a, b);
  }
}

=== FILE: jobs.dfy ===
/** The records the route optimiser reads and writes: eligible work orders and
    the per-technician, per-day schedule record. */
module Jobs {
  import opened Common

  /** An eligible work order as the optimiser sees it: its id, the customer's
      address (absent when there is no customer or no address) and the
      optional appointment time in milliseconds. */
  datatype Order = Order(id: string, address: Option<string>, scheduledDate: Option<int>)

  /** `o.customer?.address || ""`. */
  function AddressText(o: Order): (a: string)
    ensures o.address.Some? ==> a == o.address.value
    ensures o.address.None? ==> a == ""
  {
    o.address.GetOr("")
  }

  /** The ids of the orders, in order. */
  function Ids(orders: seq<Order>): (ids: seq<string>)
    ensures |ids| == |orders|
    ensures forall k | 0 <= k < |orders| :: ids[k] == orders[k].id
  {
    seq(|orders|, k requires 0 <= k < |orders| => orders[k].id)
  }

  /** The stored schedule of one technician for one day (`date` is the day's
      start). Distance and duration are nullable columns. */
  datatype Schedule = Schedule(
    technicianId: string,
    date: int,
    routeOrder: seq<string>,
    totalDistance: Option<real>,
    totalDuration: Option<real>)
}

=== FILE: labels.dfy ===
/** Location labels: the single capital letter the optimiser reads out of a
    customer address, or the synthetic `C<k>` label a job gets when the address
    yields none. The three regular expressions of the label extractor are
    modelled by hand-written scanners that follow JavaScript's semantics for
    case-insensitive patterns without the `u` flag: only the ASCII letters
    match `[A-Z]`, the word characters of `\b` are `[A-Za-z0-9_]`, and `\s`
    and `trim()` share JavaScript's whitespace set. */
module Labels {
  import opened Common

  predicate IsLetter(c: char) {
    'A' <= c <= 'Z' || 'a' <= c <= 'z'
  }

  predicate IsUpper(c: char) {
    'A' <= c <= 'Z'
  }

  predicate IsDigit(c: char) {
    '0' <= c <= '9'
  }

  predicate IsWordChar(c: char) {
    IsLetter(c) || IsDigit(c) || c == '_'
  }

  /** JavaScript's WhiteSpace and LineTerminator code points. */
  predicate IsJsSpace(c: char) {
    || c == '\t' || c == '\n' || c == '\U{000B}' || c == '\U{000C}' || c == '\r'
    || c == ' ' || c == '\U{00A0}' || c == '\U{1680}'
    || ('\U{2000}' <= c <= '\U{200A}')
    || c == '\U{2028}' || c == '\U{2029}' || c == '\U{202F}' || c == '\U{205F}'
    || c == '\U{3000}' || c == '\U{FEFF}'
  }

  /** `toUpperCase` on an ASCII letter. */
  function Upper(c: char): (u: char)
    requires IsLetter(c)
    ensures IsUpper(u)
    ensures u == c || u as int == c as int - 32
  {
    if 'a' <= c <= 'z' then (c as int - 32) as char else c
  }

  /** `toLowerCase` restricted to ASCII, enough to compare with a lower-case
      ASCII pattern. */
  function LowerAscii(c: char): char {
    if 'A' <= c <= 'Z' then (c as int + 32) as char else c
  }

  /** `\b` at position `p`: a word character on exactly one side. */
  predicate WordBoundary(s: string, p: nat)
    requires p <= |s|
  {
    (p > 0 && IsWordChar(s[p - 1])) != (p < |s| && IsWordChar(s[p]))
  }

  /** The alternative `\b([A-Z])\b` matches at `p`. */
  predicate LoneLetterAt(s: string, p: nat) {
    p < |s| && IsLetter(s[p]) && WordBoundary(s, p) && WordBoundary(s, p + 1)
  }

  /** The alternative `\(([A-Z])\)` matches at `p`. */
  predicate ParenLetterAt(s: string, p: nat) {
    p + 2 < |s| && s[p] == '(' && IsLetter(s[p + 1]) && s[p + 2] == ')'
  }

  predicate LetterMatchAt(s: string, p: nat) {
    LoneLetterAt(s, p) || ParenLetterAt(s, p)
  }

  /** The letter a match at `p` captures (group 1, or else group 2). */
  function Captured(s: string, p: nat): char
    requires LetterMatchAt(s, p)
  {
    if LoneLetterAt(s, p) then s[p] else s[p + 1]
  }

  /** The leftmost position at or after `p` where the first pattern matches. */
  function LetterMatchFrom(s: string, p: nat): (r: Option<nat>)
    ensures r.None? <==> forall q | p <= q < |s| :: !LetterMatchAt(s, q)
    ensures r.Some? ==> p <= r.value < |s| && LetterMatchAt(s, r.value)
    ensures r.Some? ==> forall q | p <= q < r.value :: !LetterMatchAt(s, q)
    decreases |s| - p
  {
    if p >= |s| then None
    else if LetterMatchAt(s, p) then Some(p)
    else LetterMatchFrom(s, p + 1)
  }

  /** The leftmost position at or after `p` holding a letter that stands alone
      between word boundaries. */
  function LoneLetterFrom(s: string, p: nat): (r: Option<nat>)
    ensures r.None? <==> forall q | p <= q < |s| :: !LoneLetterAt(s, q)
    ensures r.Some? ==> p <= r.value < |s| && LoneLetterAt(s, r.value)
    ensures r.Some? ==> forall q | p <= q < r.value :: !LoneLetterAt(s, q)
    decreases |s| - p
  {
    if p >= |s| then None
    else if LoneLetterAt(s, p) then Some(p)
    else LoneLetterFrom(s, p + 1)
  }

  /** The first index at or after `q` that does not hold whitespace. */
  function SpaceEnd(s: string, q: nat): (e: nat)
    requires q <= |s|
    ensures q <= e <= |s|
    ensures forall k | q <= k < e :: IsJsSpace(s[k])
    ensures e < |s| ==> !IsJsSpace(s[e])
    decreases |s| - q
  {
    if q < |s| && IsJsSpace(s[q]) then SpaceEnd(s, q + 1) else q
  }

  /** `location` (any case) at `p`. */
  predicate LocationWordAt(s: string, p: nat) {
    p + 8 <= |s| && forall k | 0 <= k < 8 :: LowerAscii(s[p + k]) == "location"[k]
  }

  /** `location\s+([A-Z])` matches at `p`. The greedy `\s+` takes the whole
      whitespace run; giving characters back cannot help, since the letter
      must follow a whitespace character and a letter is not whitespace. */
  predicate LocationAt(s: string, p: nat) {
    && LocationWordAt(s, p)
    && SpaceEnd(s, p + 8) > p + 8
    && SpaceEnd(s, p + 8) < |s|
    && IsLetter(s[SpaceEnd(s, p + 8)])
  }

  /** The greedy reading agrees with the regular expression: some non-empty
      whitespace run after `location` is followed by a letter. */
  lemma LocationAtIsRegexMatch(s: string, p: nat)
    requires LocationWordAt(s, p)
    ensures LocationAt(s, p) <==>
      exists e | p + 8 < e < |s| :: (forall k | p + 8 <= k < e :: IsJsSpace(s[k])) && IsLetter(s[e])
  {
    var e0 := SpaceEnd(s, p + 8);
    if e0 > p + 8 && e0 < |s| && IsLetter(s[e0]) {
      assert (forall k | p + 8 <= k < e0 :: IsJsSpace(s[k])) && IsLetter(s[e0]);
    }
    if e :| p + 8 < e < |s| && (forall k | p + 8 <= k < e :: IsJsSpace(s[k])) && IsLetter(s[e]) {
      assert !IsJsSpace(s[e]);
    }
  }

  /** The leftmost position at or after `p` where `location\s+([A-Z])` matches. */
  function LocationMatchFrom(s: string, p: nat): (r: Option<nat>)
    ensures r.None? <==> forall q | p <= q < |s| :: !LocationAt(s, q)
    ensures r.Some? ==> p <= r.value < |s| && LocationAt(s, r.value)
    ensures r.Some? ==> forall q | p <= q < r.value :: !LocationAt(s, q)
    decreases |s| - p
  {
    if p >= |s| then None
    else if LocationAt(s, p) then Some(p)
    else LocationMatchFrom(s, p + 1)
  }

  function TrimStart(s: string): (t: string)
    ensures |t| <= |s| && t == s[|s| - |t|..]
    ensures forall k | 0 <= k < |s| - |t| :: IsJsSpace(s[k])
    ensures t != [] ==> !IsJsSpace(t[0])
  {
    if s != [] && IsJsSpace(s[0]) then TrimStart(s[1..]) else s
  }

  function TrimEnd(s: string): (t: string)
    ensures |t| <= |s| && t == s[..|t|]
    ensures forall k | |t| <= k < |s| :: IsJsSpace(s[k])
    ensures t != [] ==> !IsJsSpace(t[|t| - 1])
  {
    if s != [] && IsJsSpace(s[|s| - 1]) then TrimEnd(s[..|s| - 1]) else s
  }

  /** `String.prototype.trim`: `TrimStart`, then `TrimEnd`. */
  function Trim(s: string): string {
    TrimEnd(TrimStart(s))
  }

  /** `^([A-Z])[^A-Z]` on the trimmed text: a letter followed by a non-letter. */
  predicate LeadingLetter(t: string) {
    |t| >= 2 && IsLetter(t[0]) && !IsLetter(t[1])
  }

  /** `extractLocationLabel`: the first of the three patterns that matches
      supplies the label, upper-cased; `None` is the source's `null`. */
  function ExtractLabel(address: string): (r: Option<char>)
    ensures r.Some? ==> IsUpper(r.value)
  {
    match LetterMatchFrom(address, 0)
    case Some(p) => Some(Upper(Captured(address, p)))
    case None =>
      match LocationMatchFrom(address, 0)
      case Some(p) => Some(Upper(address[SpaceEnd(address, p + 8)]))
      case None =>
        var t := Trim(address);
        if LeadingLetter(t) then Some(Upper(t[0])) else None
  }

  /** A parenthesised letter also stands alone between word boundaries, so the
      leftmost match of the first pattern always captures the leftmost lone
      letter: the parenthesis alternative never changes the outcome. */
  lemma {:induction false} LetterMatchIsLeftmostLoneLetter(s: string)
    ensures LetterMatchFrom(s, 0).None? <==> LoneLetterFrom(s, 0).None?
    ensures LetterMatchFrom(s, 0).Some? ==>
      Captured(s, LetterMatchFrom(s, 0).value) == s[LoneLetterFrom(s, 0).value]
  {
    forall q: nat | ParenLetterAt(s, q)
      ensures LoneLetterAt(s, q + 1)
    {
    }
    var m := LetterMatchFrom(s, 0);
    var l := LoneLetterFrom(s, 0);
    if m.Some? {
      var p := m.value;
      forall k | 0 <= k < p
        ensures !LoneLetterAt(s, k)
      {
        assert !LetterMatchAt(s, k);
      }
      if LoneLetterAt(s, p) {
        assert l.Some? && l.value == p;
      } else {
        assert LoneLetterAt(s, p + 1);
        assert l.Some? && l.value <= p + 1;
        assert !LoneLetterAt(s, p);
      }
    } else {
      forall q | 0 <= q < |s|
        ensures !LoneLetterAt(s, q)
      {
        assert !LetterMatchAt(s, q);
      }
    }
  }

  /** Rule 1: the leftmost lone letter decides the label, whatever else the
      address holds. */
  lemma ExtractLabelLoneLetter(s: string, q: nat)
    requires LoneLetterAt(s, q)
    requires forall k | 0 <= k < q :: !LoneLetterAt(s, k)
    ensures ExtractLabel(s) == Some(Upper(s[q]))
  {
    LetterMatchIsLeftmostLoneLetter(s);
    var l := LoneLetterFrom(s, 0);
    assert l.Some? && l.value <= q;
  }

  /** Rule 2: with no lone letter, the letter after the leftmost
      `location` + whitespace decides the label. */
  lemma ExtractLabelLocation(s: string, q: nat)
    requires forall k | 0 <= k < |s| :: !LoneLetterAt(s, k)
    requires LocationAt(s, q)
    requires forall k | 0 <= k < q :: !LocationAt(s, k)
    ensures ExtractLabel(s) == Some(Upper(s[SpaceEnd(s, q + 8)]))
  {
    LetterMatchIsLeftmostLoneLetter(s);
    var l := LocationMatchFrom(s, 0);
    assert l.Some? && l.value <= q;
  }

  /** Rule 3: with neither, a leading letter followed by a non-letter in the
      trimmed text decides the label; otherwise there is none. */
  lemma ExtractLabelLeading(s: string)
    requires forall k | 0 <= k < |s| :: !LoneLetterAt(s, k)
    requires forall k | 0 <= k < |s| :: !LocationAt(s, k)
    ensures ExtractLabel(s) == if LeadingLetter(Trim(s)) then Some(Upper(Trim(s)[0])) else None
  {
    LetterMatchIsLeftmostLoneLetter(s);
  }

  /** Rule 3 can only fire on a letter followed by a digit or `_`: a letter
      followed by anything else that is not a letter stands alone, and rule 1
      would have taken it. */
  lemma {:induction false} LeadingLetterNeedsWordChar(s: string)
    requires forall k | 0 <= k < |s| :: !LoneLetterAt(s, k)
    requires LeadingLetter(Trim(s))
    ensures IsDigit(Trim(s)[1]) || Trim(s)[1] == '_'
  {
    var ts := TrimStart(s);
    var t := TrimEnd(ts);
    var lead := |s| - |ts|;
    assert t[0] == ts[0] == s[lead];
    assert t[1] == ts[1] == s[lead + 1];
    assert lead > 0 ==> IsJsSpace(s[lead - 1]);
    assert WordBoundary(s, lead);
    assert !LoneLetterAt(s, lead);
  }

  /** The decimal digit for `d`. */
  function Digit(d: nat): (c: char)
    requires d < 10
    ensures IsDigit(c)
  {
    ('0' as int + d) as char
  }

  /** The decimal numeral of `n`, as template-literal interpolation writes it. */
  function Decimal(n: nat): (s: string)
    ensures |s| >= 1
    ensures forall k | 0 <= k < |s| :: IsDigit(s[k])
    decreases n
  {
    if n < 10 then [Digit(n)] else Decimal(n / 10) + [Digit(n % 10)]
  }

  /** The number a string of decimal digits denotes. */
  function DecimalValue(s: string): int
    decreases |s|
  {
    if s == [] then 0 else DecimalValue(s[..|s| - 1]) * 10 + (s[|s| - 1] as int - '0' as int)
  }

  lemma {:induction false} DecimalRoundTrip(n: nat)
    ensures DecimalValue(Decimal(n)) == n
    decreases n
  {
    if n >= 10 {
      DecimalRoundTrip(n / 10);
      var s := Decimal(n / 10) + [Digit(n % 10)];
      assert s[..|s| - 1] == Decimal(n / 10);
    }
  }

  /** The label of a job whose address yields none: `C` and its 1-based
      position in the day's order list. */
  function FallbackLabel(index: nat): string {
    "C" + Decimal(index + 1)
  }

  /** Different positions get different fallback labels, and none of them is a
      single letter. */
  lemma FallbackLabelInjective(i: nat, j: nat)
    ensures |FallbackLabel(i)| >= 2
    ensures FallbackLabel(i) == FallbackLabel(j) ==> i == j
  {
    if FallbackLabel(i) == FallbackLabel(j) {
      assert Decimal(i + 1) == FallbackLabel(i)[1..];
      assert Decimal(j + 1) == FallbackLabel(j)[1..];
      DecimalRoundTrip(i + 1);
      DecimalRoundTrip(j + 1);
    }
  }

  /** The label the solver uses for the job at `index`: the extracted letter as
      a one-character string, else the fallback. */
  function JobLabel(address: string, index: nat): (l: string)
    ensures ExtractLabel(address).Some? ==> |l| == 1 && IsUpper(l[0])
    ensures ExtractLabel(address).None? ==> l == FallbackLabel(index)
  {
    match ExtractLabel(address)
    case Some(c) => [c]
    case None => FallbackLabel(index)
  }
}

=== FILE: matrix.dfy ===
/** Square cost matrices over node indices and the cost of a tour on them. */
module Matrices {
  import opened Common
  import Walks

  /** `m[a][b]` is the cost of travelling from node `a` to node `b`. */
  type Matrix = seq<seq<int>>

  predicate IsSquare(m: Matrix) {
    forall a | 0 <= a < |m| :: |m[a]| == |m|
  }

  predicate Symmetric(m: Matrix) {
    && IsSquare(m)
    && forall a, b | 0 <= a < |m| && 0 <= b < |m| :: m[a][b] == m[b][a]
  }

  predicate ZeroDiagonal(m: Matrix) {
    && IsSquare(m)
    && forall a | 0 <= a < |m| :: m[a][a] == 0
  }

  /** The matrix as a weight on pairs of nodes (0 outside the matrix, where the
      tours of this model never go). */
  function Weight(m: Matrix): (nat, nat) -> int {
    (a: nat, b: nat) => if a < |m| && b < |m[a]| then m[a][b] else 0
  }

  /** Sum of the matrix entries along consecutive stops of `r`. */
  function TourCost(m: Matrix, r: seq<nat>): int {
    Walks.Cost(r, Weight(m))
  }

  lemma SymmetricWeightOf(m: Matrix)
    requires Symmetric(m)
    ensures Walks.SymmetricWeight(Weight(m))
  {
    forall x: nat, y: nat
      ensures Weight(m)(x, y) == Weight(m)(y, x)
    {
    }
  }

  /** The smallest of `lo` and the entries of `rows`. */
  function MinRows(rows: seq<seq<int>>, lo: int): (r: int)
    ensures r <= lo
    ensures forall a, b | 0 <= a < |rows| && 0 <= b < |rows[a]| :: r <= rows[a][b]
  {
    if rows == [] then lo else MinRows(rows[1..], MinRow(rows[0], lo))
  }

  function MinRow(row: seq<int>, lo: int): (r: int)
    ensures r <= lo
    ensures forall b | 0 <= b < |row| :: r <= row[b]
  {
    if row == [] then lo
    else MinRow(row[1..], if row[0] < lo then row[0] else lo)
  }

  /** A lower bound of every entry, used to bound tour costs from below. */
  function MinEntry(m: Matrix): int {
    MinRows(m, 0)
  }

  lemma TourCostLowerBound(m: Matrix, r: seq<nat>)
    requires IsSquare(m)
    requires InBounds(r, |m|)
    requires |r| >= 1
    ensures TourCost(m, r) >= (|r| - 1) * MinEntry(m)
  {
    forall k | 0 <= k < |r| - 1
      ensures Weight(m)(r[k], r[k + 1]) >= MinEntry(m)
    {
    }
    Walks.CostLowerBound(r, Weight(m), MinEntry(m));
  }

  /** `r` is a closed tour over the `n` nodes of a matrix: it starts and ends at
      the depot `d` and visits every other node exactly once in between. */
  predicate ClosedTour(r: seq<nat>, n: nat, d: nat) {
    && |r| == n + 1
    && d < n
    && r[0] == d
    && r[n] == d
    && multiset(r[1..n]) == multiset(Nodes(n) - {d})
  }

  /** The nodes of a closed tour are all valid indices. */
  lemma ClosedTourInBounds(r: seq<nat>, n: nat, d: nat)
    requires ClosedTour(r, n, d)
    ensures InBounds(r, n)
  {
    forall k | 0 <= k < |r|
      ensures r[k] < n
    {
      if 0 < k < n {
        assert r[k] == r[1..n][k - 1];
        assert r[k] in multiset(Nodes(n) - {d});
      }
    }
  }
}

=== FILE: nearest_neighbour.dfy ===
/** The nearest-neighbour construction of the route solver: start at the depot,
    repeatedly move to the cheapest unvisited node, and return to the depot. */
module NearestNeighbour {
  import opened Common
  import opened Matrices

  /** `x` is what the scan over all nodes picks from `cur` among the nodes below
      `bound`: an unvisited node no dearer than any other unvisited node and
      strictly cheaper than every unvisited node with a lower index (the scan
      only replaces its candidate on a strict `<`). */
  predicate IsNearest(m: Matrix, cur: nat, visited: set<nat>, x: nat, bound: nat)
    requires IsSquare(m)
    requires bound <= |m|
  {
    && cur < |m|
    && x < bound
    && x !in visited
    && forall y: nat | y < bound && y !in visited ::
         m[cur][x] <= m[cur][y] && (y < x ==> m[cur][x] < m[cur][y])
  }

  /** The scan from index `i` on, with `best` the candidate so far (`None` stands
      for the initial distance `Infinity`). */
  function NearestFrom(m: Matrix, cur: nat, visited: set<nat>, i: nat, best: Option<nat>): (r: Option<nat>)
    requires IsSquare(m) && cur < |m| && i <= |m|
    requires best.None? ==> forall y: nat | y < i :: y in visited
    requires best.Some? ==> IsNearest(m, cur, visited, best.value, i)
    ensures r.None? ==> forall y: nat | y < |m| :: y in visited
    ensures r.Some? ==> IsNearest(m, cur, visited, r.value, |m|)
    decreases |m| - i
  {
    if i == |m| then best
    else if i !in visited && (best.None? || m[cur][i] < m[cur][best.value]) then
      NearestFrom(m, cur, visited, i + 1, Some(i))
    else
      NearestFrom(m, cur, visited, i + 1, best)
  }

  /** The unvisited node nearest to `cur`, or `None` when every node is visited. */
  function Nearest(m: Matrix, cur: nat, visited: set<nat>): (r: Option<nat>)
    requires IsSquare(m) && cur < |m|
    ensures r.None? <==> forall y: nat | y < |m| :: y in visited
    ensures r.Some? ==> IsNearest(m, cur, visited, r.value, |m|)
  {
    NearestFrom(m, cur, visited, 0, None)
  }

  /** The stop at `k` is the nearest node to its predecessor among those not
      yet on the route. */
  predicate NearestAt(m: Matrix, r: seq<nat>, k: nat)
    requires IsSquare(m) && 1 <= k < |r|
  {
    IsNearest(m, r[k - 1], Elems(r[..k]), r[k], |m|)
  }

  /** Every stop after the first is the nearest unvisited node to its predecessor. */
  predicate Greedy(m: Matrix, r: seq<nat>)
    requires IsSquare(m)
  {
    forall k | 1 <= k < |r| :: NearestAt(m, r, k)
  }

  /** The state of the construction loop: `route` ends at `cur`, and its stops
      are `visited`, each once, chosen greedily. */
  predicate Partial(m: Matrix, cur: nat, visited: set<nat>, route: seq<nat>)
    requires IsSquare(m)
  {
    && cur < |m|
    && visited <= Nodes(|m|)
    && |route| >= 1 && route[|route| - 1] == cur
    && Elems(route) == visited && multiset(route) == multiset(visited)
    && Greedy(m, route)
  }

  /** The construction loop: extend `route` until every node is visited. */
  function Construct(m: Matrix, cur: nat, visited: set<nat>, route: seq<nat>): (r: seq<nat>)
    requires IsSquare(m) && Partial(m, cur, visited, route)
    ensures |r| >= |route| && r[..|route|] == route
    ensures multiset(r) == multiset(Nodes(|m|))
    ensures Greedy(m, r)
    decreases Nodes(|m|) - visited
  {
    if |visited| >= |m| then
      NodesCard(|m|);
      SubsetSameCard(visited, Nodes(|m|));
      route
    else
      match Nearest(m, cur, visited)
      case None =>
        AllVisited(m, visited);
        route
      case Some(k) =>
        ExtendGreedy(m, cur, route, visited, k);
        var r := Construct(m, k, visited + {k}, route + [k]);
        PrefixOfExtension(r, route, k);
        r
  }

  lemma AllVisited(m: Matrix, visited: set<nat>)
    requires visited <= Nodes(|m|)
    requires forall y: nat | y < |m| :: y in visited
    ensures visited == Nodes(|m|)
  {
  }

  lemma PrefixOfExtension(r: seq<nat>, route: seq<nat>, k: nat)
    requires |r| >= |route| + 1 && r[..|route| + 1] == route + [k]
    ensures r[..|route|] == route
  {
    assert r[..|route|] == r[..|route| + 1][..|route|];
  }

  /** One step of the loop: moving to the nearest unvisited node keeps the
      loop's state and visits one more node. */
  lemma ExtendGreedy(m: Matrix, cur: nat, route: seq<nat>, visited: set<nat>, k: nat)
    requires IsSquare(m) && Partial(m, cur, visited, route)
    requires IsNearest(m, cur, visited, k, |m|)
    ensures Partial(m, k, visited + {k}, route + [k])
    ensures Nodes(|m|) - (visited + {k}) < Nodes(|m|) - visited
  {
    ExtendStops(route, visited, k);
    var r := route + [k];
    forall j | 1 <= j < |r|
      ensures NearestAt(m, r, j)
    {
      if j < |route| {
        assert NearestAt(m, route, j);
        assert r[..j] == route[..j];
      } else {
        assert r[..j] == route;
      }
    }
    assert k in Nodes(|m|) - visited;
  }

  /** Appending an unvisited node adds it to the visited set, once. */
  lemma ExtendStops(route: seq<nat>, visited: set<nat>, k: nat)
    requires Elems(route) == visited && multiset(route) == multiset(visited)
    requires k !in visited
    ensures Elems(route + [k]) == visited + {k}
    ensures multiset(route + [k]) == multiset(visited + {k})
  {
    assert multiset(visited + {k}) == multiset(visited) + multiset{k};
  }

  /** The tour the construction builds: the depot, every other node once, and
      the depot again. */
  function Tour(m: Matrix, d: nat): (r: seq<nat>)
    requires IsSquare(m) && d < |m|
    ensures ClosedTour(r, |m|, d)
    ensures forall k | 1 <= k < |m| :: NearestAt(m, r, k)
  {
    assert Elems([d]) == {d};
    assert Partial(m, d, {d}, [d]);
    var route := Construct(m, d, {d}, [d]);
    TourShape(m, d, route);
    route + [d]
  }

  lemma TourShape(m: Matrix, d: nat, route: seq<nat>)
    requires IsSquare(m) && d < |m|
    requires |route| >= 1 && route[0] == d
    requires multiset(route) == multiset(Nodes(|m|))
    requires Greedy(m, route)
    ensures ClosedTour(route + [d], |m|, d)
    ensures forall k | 1 <= k < |m| :: NearestAt(m, route + [d], k)
  {
    NodesCard(|m|);
    assert |route| == |multiset(route)| == |m|;
    var r := route + [d];
    assert route == [d] + route[1..];
    assert r[1..|m|] == route[1..];
    assert multiset(route[1..]) == multiset(Nodes(|m|)) - multiset{d};
    assert multiset(Nodes(|m|) - {d}) == multiset(Nodes(|m|)) - multiset{d};
    forall k | 1 <= k < |m|
      ensures NearestAt(m, r, k)
    {
      assert NearestAt(m, route, k);
      assert r[..k] == route[..k];
    }
  }
}

=== FILE: optimizer.dfy ===
/** The route-optimisation request handler as a pure function. The database
    reads are parameters: the set of technician ids, the day's eligible orders
    and the schedule record already stored for the technician and day. The
    write is the returned schedule record. */
module Optimizer {
  import opened Common
  import opened Jobs
  import Labels
  import CostMatrix
  import opened Matrices
  import Solver
  import NearestNeighbour
  import DateOverride
  import opened RouteMetrics

  /** The request body; absent fields take their defaults. */
  datatype Request = Request(
    technicianId: Option<string>,
    depotLabel: Option<string>,
    serviceTimePerJob: Option<int>)

  datatype Metrics = Metrics(
    totalDistance: real,
    totalFuelCost: real,
    totalDuration: real,
    totalTravelTime: real,
    totalServiceTime: int,
    routeOrder: seq<string>,
    depotLabel: string)

  /** The success body: the saved (or cached) schedule and, unless the day was
      empty, the metrics. */
  datatype Response = Response(schedule: Schedule, metrics: Option<Metrics>)

  /** The depot label of the request, `"Z"` when it gives none. */
  function DepotLabel(req: Request): (l: string)
    ensures req.depotLabel.Some? ==> l == req.depotLabel.value
    ensures req.depotLabel.None? ==> l == "Z"
  {
    req.depotLabel.GetOr("Z")
  }

  /** The minutes of service per job, 30 when the request gives none. */
  function ServiceTime(req: Request): (t: int)
    ensures req.serviceTimePerJob.Some? ==> t == req.serviceTimePerJob.value
    ensures req.serviceTimePerJob.None? ==> t == 30
  {
    req.serviceTimePerJob.GetOr(30)
  }

  /** The record written for a day without orders: the existing record with an
      empty route and zero totals, or a new such record. */
  function EmptyDayRecord(technicianId: string, day: int, existing: Option<Schedule>): (s: Schedule)
    ensures s.routeOrder == [] && s.totalDistance == Some(0.0) && s.totalDuration == Some(0.0)
    ensures existing.Some? ==> s.technicianId == existing.value.technicianId && s.date == existing.value.date
    ensures existing.None? ==> s.technicianId == technicianId && s.date == day
  {
    match existing
    case Some(e) => e.(routeOrder := [], totalDistance := Some(0.0), totalDuration := Some(0.0))
    case None => Schedule(technicianId, day, [], Some(0.0), Some(0.0))
  }

  /** The cache test as written: the stored route is non-empty, and its id set
      has the size of the current id set and is contained in it. */
  predicate CacheHit(stored: seq<string>, orders: seq<Order>) {
    && |stored| > 0
    && |Elems(stored)| == |Elems(Ids(orders))|
    && forall id | id in Elems(stored) :: id in Elems(Ids(orders))
  }

  /** The cache test is set equality of the stored and current ids. */
  lemma CacheHitIffSameIds(stored: seq<string>, orders: seq<Order>)
    ensures CacheHit(stored, orders) <==> stored != [] && Elems(stored) == Elems(Ids(orders))
  {
    if stored != [] && |Elems(stored)| == |Elems(Ids(orders))| && Elems(stored) <= Elems(Ids(orders)) {
      SubsetSameCard(Elems(stored), Elems(Ids(orders)));
    }
  }

  /** The answer on a cache hit: the stored record, unchanged, with metrics read
      back from it. */
  function CachedResponse(existing: Schedule, orders: seq<Order>, req: Request): (r: Response)
    ensures r.schedule == existing
    ensures r.metrics.Some? && r.metrics.value.routeOrder == existing.routeOrder
    ensures r.metrics.value.totalDistance == existing.totalDistance.GetOr(0.0)
    ensures r.metrics.value.totalFuelCost == existing.totalDistance.GetOr(0.0)
    ensures r.metrics.value.totalDuration == existing.totalDuration.GetOr(0.0)
    ensures r.metrics.value.totalTravelTime == 0.0 && r.metrics.value.depotLabel == "Z"
    ensures r.metrics.value.totalServiceTime == |orders| * ServiceTime(req)
  {
    Response(existing, Some(Metrics(
      existing.totalDistance.GetOr(0.0),
      existing.totalDistance.GetOr(0.0),
      existing.totalDuration.GetOr(0.0),
      0.0,
      |orders| * ServiceTime(req),
      existing.routeOrder,
      "Z")))
  }

  /** The solver's label of each order: the extracted letter or `C<k>`. */
  function JobLabels(orders: seq<Order>): (ls: seq<string>)
    ensures |ls| == |orders|
    ensures forall k | 0 <= k < |orders| :: ls[k] == Labels.JobLabel(AddressText(orders[k]), k)
  {
    seq(|orders|, k requires 0 <= k < |orders| => Labels.JobLabel(AddressText(orders[k]), k))
  }

  /** The day's cost matrix: one node per order and the depot last. */
  function DayMatrix(orders: seq<Order>, req: Request): (m: Matrix)
    ensures DayShaped(m, |orders|)
  {
    CostMatrix.ForDay(JobLabels(orders), DepotLabel(req))
  }

  /** What the solver and the metrics rely on in the day's matrix of `n`
      orders: one node per order plus the depot, symmetric, zero on the
      diagonal and at least 20 everywhere else. */
  predicate DayShaped(m: Matrix, n: nat) {
    && |m| == n + 1
    && Symmetric(m)
    && ZeroDiagonal(m)
    && forall i, j | 0 <= i < |m| && 0 <= j < |m| && i != j :: m[i][j] >= 20
  }

  /** The id of the order at a route index (the route holds order indices
      only, so the empty fallback is never taken). */
  function IdAt(orders: seq<Order>): nat -> string {
    (i: nat) => if i < |orders| then orders[i].id else ""
  }

  /** The solver's visiting order of the `n` orders, as order indices; the
      depot is node `n`. */
  function Route(m: Matrix, n: nat): (route: seq<nat>)
    requires DayShaped(m, n) && n >= 1
    ensures multiset(route) == multiset(Nodes(n))
    ensures ClosedTour([n] + route + [n], n + 1, n)
    ensures TourCost(m, [n] + route + [n]) <= TourCost(m, NearestNeighbour.Tour(m, n))
    ensures InBounds(route, n)
  {
    var route := Solver.SolveTour(m, n);
    NodesBelow(n);
    PermutationInBounds(route, n);
    route
  }

  lemma PermutationInBounds(s: seq<nat>, n: nat)
    requires multiset(s) == multiset(Nodes(n))
    ensures InBounds(s, n)
  {
    forall k | 0 <= k < |s| ensures s[k] < n {
      assert s[k] in multiset(s);
    }
  }

  lemma NodesBelow(n: nat)
    ensures Nodes(n + 1) - {n} == Nodes(n)
  {
  }

  /** The fuel cost of the closed tour depot, route, depot. */
  function RouteCost(m: Matrix, n: nat): int
    requires DayShaped(m, n) && n >= 1
  {
    TourCost(m, [n] + Route(m, n) + [n])
  }

  /** The order ids in solved order, then the scheduled-date override. */
  function FinalRouteOrder(orders: seq<Order>, m: Matrix): seq<string>
    requires DayShaped(m, |orders|) && orders != []
  {
    var route := Route(m, |orders|);
    DateOverride.FinalOrder(orders, route, MapSeq(IdAt(orders), route))
  }

  /** The record written after solving: the existing record with the new route
      and totals, or a new record. */
  function SolvedRecord(technicianId: string, day: int, existing: Option<Schedule>, orders: seq<Order>, m: Matrix, t: Totals): (s: Schedule)
    requires DayShaped(m, |orders|) && orders != []
    ensures s.routeOrder == FinalRouteOrder(orders, m)
    ensures s.totalDistance == Some(RoundCents(t.distance as real))
    ensures s.totalDuration == Some(Round(t.duration) as real)
    ensures existing.Some? ==> s.technicianId == existing.value.technicianId && s.date == existing.value.date
    ensures existing.None? ==> s.technicianId == technicianId && s.date == day
  {
    var order := FinalRouteOrder(orders, m);
    var distance := Some(RoundCents(t.distance as real));
    var duration := Some(Round(t.duration) as real);
    match existing
    case Some(e) => e.(routeOrder := order, totalDistance := distance, totalDuration := duration)
    case None => Schedule(technicianId, day, order, distance, duration)
  }

  /** The answer after solving on the day's matrix. */
  function SolvedOn(technicianId: string, day: int, existing: Option<Schedule>, orders: seq<Order>, req: Request, m: Matrix): (r: Response)
    requires DayShaped(m, |orders|) && orders != []
    ensures r.metrics.Some? && r.metrics.value.routeOrder == r.schedule.routeOrder
    ensures r.schedule.routeOrder == FinalRouteOrder(orders, m)
    ensures r.schedule.totalDistance == Some(r.metrics.value.totalDistance)
    ensures r.schedule.totalDuration == Some(r.metrics.value.totalDuration)
    ensures r.metrics.value.totalFuelCost == r.metrics.value.totalDistance == RouteCost(m, |orders|) as real
    ensures r.metrics.value.depotLabel == DepotLabel(req)
    ensures r.metrics.value.totalTravelTime > 0.0
    ensures r.metrics.value.totalTravelTime == Round(TravelMinutes(RouteCost(m, |orders|))) as real
    ensures r.metrics.value.totalServiceTime == |orders| * ServiceTime(req)
    ensures r.metrics.value.totalDuration
         == (Round(TravelMinutes(RouteCost(m, |orders|))) + |orders| * ServiceTime(req)) as real
  {
    DurationRounding(RouteCost(m, |orders|), |orders|, ServiceTime(req));
    var t := Compute(RouteCost(m, |orders|), |orders|, ServiceTime(req));
    RoundWhole(t.distance);
    RouteCostBounds(m, |orders|);
    Response(SolvedRecord(technicianId, day, existing, orders, m, t), Some(Metrics(
      RoundCents(t.distance as real),
      RoundCents(t.distance as real),
      Round(t.duration) as real,
      Round(t.travel) as real,
      t.service,
      FinalRouteOrder(orders, m),
      DepotLabel(req))))
  }

  /** The answer after solving: the stored order visits every order once, and
      the reported distance is the solved tour's cost on the day's matrix, at
      least 20 and no more than the nearest-neighbour tour's. */
  function SolvedResponse(technicianId: string, day: int, existing: Option<Schedule>, orders: seq<Order>, req: Request): (r: Response)
    requires orders != []
    ensures r.metrics.Some? && r.metrics.value.routeOrder == r.schedule.routeOrder
    ensures multiset(r.schedule.routeOrder) == multiset(Ids(orders))
    ensures r.metrics.value.totalDistance == RouteCost(DayMatrix(orders, req), |orders|) as real
    ensures 20 <= RouteCost(DayMatrix(orders, req), |orders|)
    ensures RouteCost(DayMatrix(orders, req), |orders|)
         <= TourCost(DayMatrix(orders, req), NearestNeighbour.Tour(DayMatrix(orders, req), |orders|))
  {
    FinalRouteOrderPermutation(orders, DayMatrix(orders, req));
    RouteCostBounds(DayMatrix(orders, req), |orders|);
    SolvedOn(technicianId, day, existing, orders, req, DayMatrix(orders, req))
  }

  /** The POST handler: 400 without a technician id, 404 for an unknown
      technician, the empty-day record when there are no orders, the stored
      record when its ids are the day's ids, and a fresh solution otherwise. */
  function Optimize(req: Request, technicians: set<string>, day: int, orders: seq<Order>, existing: Option<Schedule>): (r: Result<Response, Failure>)
    ensures !Present(req.technicianId) ==> r == Err(BadRequest("technicianId is required"))
    ensures Present(req.technicianId) && req.technicianId.value !in technicians ==> r == Err(NotFound("Technician not found"))
    ensures r.Ok? <==> Present(req.technicianId) && req.technicianId.value in technicians
    ensures r.Ok? && orders == [] ==>
      r.value.metrics.None? && r.value.schedule == EmptyDayRecord(req.technicianId.value, day, existing)
    ensures r.Ok? && orders != [] ==>
      && r.value.metrics.Some?
      && r.value.metrics.value.routeOrder == r.value.schedule.routeOrder
      && Elems(r.value.schedule.routeOrder) == Elems(Ids(orders))
  {
    if !Present(req.technicianId) then Err(BadRequest("technicianId is required"))
    else if req.technicianId.value !in technicians then Err(NotFound("Technician not found"))
    else if orders == [] then Ok(Response(EmptyDayRecord(req.technicianId.value, day, existing), None))
    else if existing.Some? && CacheHit(existing.value.routeOrder, orders) then
      CacheHitIffSameIds(existing.value.routeOrder, orders);
      Ok(CachedResponse(existing.value, orders, req))
    else
      var m := DayMatrix(orders, req);
      FinalRouteOrderPermutation(orders, m);
      MultisetElems(FinalRouteOrder(orders, m), Ids(orders));
      Ok(SolvedOn(req.technicianId.value, day, existing, orders, req, m))
  }

  lemma MultisetElems<T>(a: seq<T>, b: seq<T>)
    requires multiset(a) == multiset(b)
    ensures Elems(a) == Elems(b)
  {
    forall x ensures x in a <==> x in b {
      assert x in a <==> x in multiset(a);
      assert x in b <==> x in multiset(b);
    }
  }

  /** The ids of the orders at indices 0 .. n-1 are the order ids. */
  lemma IdsOfRange(orders: seq<Order>)
    ensures MapSeq(IdAt(orders), Range(|orders|)) == Ids(orders)
  {
  }

  /** The final order lists every order id exactly as often as the orders do,
      with or without the date override. */
  lemma FinalRouteOrderPermutation(orders: seq<Order>, m: Matrix)
    requires DayShaped(m, |orders|) && orders != []
    ensures multiset(FinalRouteOrder(orders, m)) == multiset(Ids(orders))
  {
    var route := Route(m, |orders|);
    if DateOverride.NoneDated(orders) {
      RangeElems(|orders|);
      MapSeqPermutation(IdAt(orders), route, Range(|orders|));
      IdsOfRange(orders);
    } else {
      var es := DateOverride.Entries(orders, route);
      DateOverride.DatedOrderCharacterised(orders, route, DateOverride.Sort(es));
      assert DateOverride.FinalOrder(orders, route, []) == FinalRouteOrder(orders, m);
    }
  }

  /** Without appointment times the final order is the solver's order. */
  lemma NoDatesKeepsSolverOrder(orders: seq<Order>, m: Matrix)
    requires DayShaped(m, |orders|) && orders != []
    requires DateOverride.NoneDated(orders)
    ensures var route := Route(m, |orders|);
            && |FinalRouteOrder(orders, m)| == |route|
            && forall k | 0 <= k < |route| :: FinalRouteOrder(orders, m)[k] == orders[route[k]].id
  {
    var route := Route(m, |orders|);
    var ids := MapSeq(IdAt(orders), route);
    assert FinalRouteOrder(orders, m) == ids;
    assert forall k | 0 <= k < |route| :: ids[k] == IdAt(orders)(route[k]);
  }

  /** A stored record whose route lists exactly the day's ids is returned as
      it is. */
  lemma StoredRouteIsCached(req: Request, technicians: set<string>, day: int, orders: seq<Order>, stored: Schedule)
    requires Present(req.technicianId) && req.technicianId.value in technicians
    requires orders != []
    requires Elems(stored.routeOrder) == Elems(Ids(orders))
    ensures Optimize(req, technicians, day, orders, Some(stored)) == Ok(CachedResponse(stored, orders, req))
  {
    assert orders[0].id in Elems(Ids(orders));
    CacheHitIffSameIds(stored.routeOrder, orders);
  }

  /** A repeated call with the record the first call saved returns that record
      unchanged, with the same route order, distance and duration: the second
      call is a cache hit (or, on an empty day, rewrites the same empty
      record). */
  lemma RepeatIsCached(req: Request, technicians: set<string>, day: int, orders: seq<Order>, existing: Option<Schedule>)
    requires Optimize(req, technicians, day, orders, existing).Ok?
    ensures var first := Optimize(req, technicians, day, orders, existing).value;
            var second := Optimize(req, technicians, day, orders, Some(first.schedule));
            && second.Ok?
            && second.value.schedule == first.schedule
            && (orders != [] ==>
                  && second.value.metrics.Some? && first.metrics.Some?
                  && second.value.metrics.value.routeOrder == first.metrics.value.routeOrder
                  && second.value.metrics.value.totalDistance == first.metrics.value.totalDistance
                  && second.value.metrics.value.totalDuration == first.metrics.value.totalDuration)
  {
    var first := Optimize(req, technicians, day, orders, existing).value;
    if orders != [] {
      StoredRouteIsCached(req, technicians, day, orders, first.schedule);
    }
  }

  /** When there is no stored record, or its ids are not the day's ids (an order
      was added or removed), the day is solved afresh. */
  lemma ResolvesOnChangedIds(req: Request, technicians: set<string>, day: int, orders: seq<Order>, existing: Option<Schedule>)
    requires Optimize(req, technicians, day, orders, existing).Ok?
    requires orders != []
    requires existing.Some? ==> Elems(existing.value.routeOrder) != Elems(Ids(orders))
    ensures Optimize(req, technicians, day, orders, existing).value
         == SolvedResponse(req.technicianId.value, day, existing, orders, req)
  {
    if existing.Some? {
      CacheHitIffSameIds(existing.value.routeOrder, orders);
    }
  }

  /** The cached answer does not repeat the metrics of the call that solved the
      day: it reports no travel time and the depot label "Z", where the solving
      call reported a positive travel time and the requested depot label. */
  lemma RepeatReportsNoTravel(req: Request, technicians: set<string>, day: int, orders: seq<Order>, existing: Option<Schedule>)
    requires Optimize(req, technicians, day, orders, existing).Ok?
    requires orders != []
    requires existing.Some? ==> Elems(existing.value.routeOrder) != Elems(Ids(orders))
    ensures var first := Optimize(req, technicians, day, orders, existing).value;
            var second := Optimize(req, technicians, day, orders, Some(first.schedule)).value;
            && first.metrics.value.totalTravelTime > 0.0
            && first.metrics.value.depotLabel == DepotLabel(req)
            && second.metrics.value.totalTravelTime == 0.0
            && second.metrics.value.depotLabel == "Z"
  {
    ResolvesOnChangedIds(req, technicians, day, orders, existing);
    var first := SolvedResponse(req.technicianId.value, day, existing, orders, req);
    StoredRouteIsCached(req, technicians, day, orders, first.schedule);
  }

  /** The solved tour costs at least one leg of 20 (the first leg leaves the
      depot for an order) and no more than the nearest-neighbour tour. */
  lemma RouteCostBounds(m: Matrix, n: nat)
    requires DayShaped(m, n) && n >= 1
    ensures 20 <= RouteCost(m, n)
    ensures RouteCost(m, n) <= TourCost(m, NearestNeighbour.Tour(m, n))
  {
    var route := Route(m, n);
    var r := [n] + route + [n];
    ClosedTourInBounds(r, n + 1, n);
    assert route[0] in multiset(Nodes(n));
    FirstLegBound(m, r, 20);
  }

  /** On a matrix without negative entries a walk costs at least its first leg. */
  lemma FirstLegBound(m: Matrix, r: seq<nat>, lo: int)
    requires IsSquare(m) && InBounds(r, |m|) && |r| >= 2
    requires forall i, j | 0 <= i < |m| && 0 <= j < |m| :: m[i][j] >= 0
    requires m[r[0]][r[1]] >= lo
    ensures TourCost(m, r) >= lo
  {
    forall k | 0 <= k < |r[1..]| - 1
      ensures Weight(m)(r[1..][k], r[1..][k + 1]) >= 0
    {
      assert r[1..][k] == r[k + 1];
    }
    Walks.CostLowerBound(r[1..], Weight(m), 0);
  }

  /** A day with one order visits just that order. */
  lemma SingleOrder(orders: seq<Order>, m: Matrix)
    requires DayShaped(m, |orders|) && |orders| == 1
    ensures FinalRouteOrder(orders, m) == [orders[0].id]
  {
    FinalRouteOrderPermutation(orders, m);
    var f := FinalRouteOrder(orders, m);
    assert |f| == |multiset(f)| == 1;
    assert f[0] in multiset(Ids(orders));
  }

  /** When the only order with an appointment is order `k`, it is visited
      first, wherever the solver placed it. */
  lemma OnlyDatedOrderFirst(orders: seq<Order>, m: Matrix, k: nat)
    requires DayShaped(m, |orders|)
    requires k < |orders|
    requires orders[k].scheduledDate.Some?
    requires forall q | 0 <= q < |orders| && q != k :: orders[q].scheduledDate.None?
    ensures FinalRouteOrder(orders, m)[0] == orders[k].id
  {
    var route := Route(m, |orders|);
    DateOverride.OnlyDatedFirst(orders, route, MapSeq(IdAt(orders), route), k);
  }
}

=== FILE: route_graph.dfy ===
/** The figures the route graph shows: which edges lie on the optimised tour,
    the tour's cost over a direction-agnostic edge list, the cost of visiting
    the same labels alphabetically, the savings, and each node's number. */
module RouteGraph {
  import opened Common
  import Walks
  import Strings

  /** An edge of the displayed graph, keyed by the two location labels. */
  datatype Edge = Edge(from: string, to: string, cost: int)

  /** The stops of the drawn tour: the depot, the route labels, the depot. */
  function Stops(route: seq<string>, depot: string): (s: seq<string>)
    ensures |s| == |route| + 2
    ensures s[0] == depot && s[|route| + 1] == depot
    ensures forall k | 0 <= k < |route| :: s[k + 1] == route[k]
  {
    [depot] + route + [depot]
  }

  /** Where leg `i` of the loop starts: the depot for the first leg. */
  function LegFrom(route: seq<string>, depot: string, i: nat): string
    requires i <= |route|
  {
    if i == 0 then depot else route[i - 1]
  }

  /** Where leg `i` of the loop ends: the depot for the last leg. */
  function LegTo(route: seq<string>, depot: string, i: nat): string
    requires i <= |route|
  {
    if i == |route| then depot else route[i]
  }

  /** The loop's legs are the consecutive pairs of the stops. */
  lemma LegsAreConsecutiveStops(route: seq<string>, depot: string, i: nat)
    requires i <= |route|
    ensures LegFrom(route, depot, i) == Stops(route, depot)[i]
    ensures LegTo(route, depot, i) == Stops(route, depot)[i + 1]
  {
  }

  /** The set key of an edge: `${from}-${to}`. */
  function Key(from: string, to: string): string {
    from + "-" + to
  }

  /** Labels without a dash give distinct keys to distinct pairs. */
  lemma KeyInjective(a: string, b: string, c: string, d: string)
    requires '-' !in a && '-' !in c
    requires Key(a, b) == Key(c, d)
    ensures a == c && b == d
  {
    var k := Key(a, b);
    assert forall q | 0 <= q < |a| :: k[q] == a[q];
    assert forall q | 0 <= q < |c| :: k[q] == c[q];
    assert k[|a|] == '-' && k[|c|] == '-';
    assert |a| == |c|;
    assert a == k[..|a|] && c == k[..|c|];
    assert b == k[|a| + 1..] && d == k[|c| + 1..];
  }

  /** `k` is one of the two keys of leg `l`. */
  predicate LegKey(route: seq<string>, depot: string, l: nat, k: string)
    requires l <= |route|
  {
    || k == Key(LegFrom(route, depot, l), LegTo(route, depot, l))
    || k == Key(LegTo(route, depot, l), LegFrom(route, depot, l))
  }

  /** The keys the marking loop has added after its first `i` legs. */
  function Marked(route: seq<string>, depot: string, i: nat): (keys: set<string>)
    requires i <= |route| + 1
    ensures forall k :: k in keys <==> exists l | 0 <= l < i :: LegKey(route, depot, l, k)
  {
    if i == 0 then {}
    else
      var from, to := LegFrom(route, depot, i - 1), LegTo(route, depot, i - 1);
      var keys := Marked(route, depot, i - 1) + {Key(from, to), Key(to, from)};
      assert forall k :: k in keys <==> exists l | 0 <= l < i :: LegKey(route, depot, l, k) by {
        forall k ensures k in keys <==> exists l | 0 <= l < i :: LegKey(route, depot, l, k) {
          if k in keys && k !in Marked(route, depot, i - 1) {
            assert LegKey(route, depot, i - 1, k);
          }
          if exists l | 0 <= l < i :: LegKey(route, depot, l, k) {
            var l :| 0 <= l < i && LegKey(route, depot, l, k);
            if l < i - 1 {
              assert k in Marked(route, depot, i - 1);
            }
          }
        }
      }
      keys
  }

  /** `optimizedEdges`: both keys of every leg of the tour. */
  function OptimizedEdges(route: seq<string>, depot: string): set<string> {
    Marked(route, depot, |route| + 1)
  }

  /** Both directions of every leg of the tour are highlighted. */
  lemma LegHighlighted(route: seq<string>, depot: string, l: nat)
    requires l <= |route|
    ensures Key(Stops(route, depot)[l], Stops(route, depot)[l + 1]) in OptimizedEdges(route, depot)
    ensures Key(Stops(route, depot)[l + 1], Stops(route, depot)[l]) in OptimizedEdges(route, depot)
  {
    LegsAreConsecutiveStops(route, depot, l);
    assert LegKey(route, depot, l, Key(Stops(route, depot)[l], Stops(route, depot)[l + 1]));
    assert LegKey(route, depot, l, Key(Stops(route, depot)[l + 1], Stops(route, depot)[l]));
  }

  /** With dash-free labels, only the legs of the tour are highlighted: a
      highlighted edge joins two consecutive stops, in one direction or the
      other. */
  lemma HighlightedIsLeg(route: seq<string>, depot: string, a: string, b: string)
    requires '-' !in depot && forall k | 0 <= k < |route| :: '-' !in route[k]
    requires '-' !in a && '-' !in b
    requires Key(a, b) in OptimizedEdges(route, depot)
    ensures exists l | 0 <= l <= |route| :: Consecutive(Stops(route, depot), l, a, b)
  {
    var l :| 0 <= l < |route| + 1 && LegKey(route, depot, l, Key(a, b));
    LegKeyIsConsecutive(route, depot, l, a, b);
  }

  lemma LegKeyIsConsecutive(route: seq<string>, depot: string, l: nat, a: string, b: string)
    requires l <= |route|
    requires '-' !in LegFrom(route, depot, l) && '-' !in LegTo(route, depot, l)
    requires '-' !in a && '-' !in b
    requires LegKey(route, depot, l, Key(a, b))
    ensures Consecutive(Stops(route, depot), l, a, b)
  {
    LegsAreConsecutiveStops(route, depot, l);
    var from, to := LegFrom(route, depot, l), LegTo(route, depot, l);
    if Key(a, b) == Key(from, to) {
      KeyInjective(a, b, from, to);
    } else {
      KeyInjective(a, b, to, from);
    }
  }

  /** `a` and `b` are the stops at `l` and `l + 1`, in either order. */
  predicate Consecutive(s: seq<string>, l: nat, a: string, b: string)
    requires l + 1 < |s|
  {
    (a == s[l] && b == s[l + 1]) || (b == s[l] && a == s[l + 1])
  }

  /** The edge joins `from` and `to` in one direction or the other. */
  predicate Joins(e: Edge, from: string, to: string) {
    (e.from == from && e.to == to) || (e.from == to && e.to == from)
  }

  /** `edges.find(...)`: the first edge joining the two labels. */
  function FindEdge(edges: seq<Edge>, from: string, to: string): (r: Option<Edge>)
    ensures r.None? <==> forall k | 0 <= k < |edges| :: !Joins(edges[k], from, to)
    ensures r.Some? ==> exists k | 0 <= k < |edges| ::
      edges[k] == r.value && Joins(edges[k], from, to) &&
      forall q | 0 <= q < k :: !Joins(edges[q], from, to)
  {
    if edges == [] then None
    else if Joins(edges[0], from, to) then Some(edges[0])
    else
      var r := FindEdge(edges[1..], from, to);
      assert forall k | 1 <= k < |edges| :: edges[k] == edges[1..][k - 1];
      r
  }

  /** The search ignores direction. */
  lemma {:induction false} FindEdgeSymmetric(edges: seq<Edge>, a: string, b: string)
    ensures FindEdge(edges, a, b) == FindEdge(edges, b, a)
  {
    if edges != [] {
      FindEdgeSymmetric(edges[1..], a, b);
    }
  }

  /** What one leg adds: the cost of the edge found, or 0 when there is none. */
  function LegCost(edges: seq<Edge>, from: string, to: string): (c: int)
    ensures FindEdge(edges, from, to).None? ==> c == 0
    ensures FindEdge(edges, from, to).Some? ==> c == FindEdge(edges, from, to).value.cost
  {
    match FindEdge(edges, from, to)
    case Some(e) => e.cost
    case None => 0
  }

  function LegWeight(edges: seq<Edge>): (string, string) -> int {
    (a: string, b: string) => LegCost(edges, a, b)
  }

  /** The sum of the leg costs along depot, route, depot. */
  function TourCost(edges: seq<Edge>, route: seq<string>, depot: string): int {
    Walks.Cost(Stops(route, depot), LegWeight(edges))
  }

  /** The `optimizedCost` loop. */
  method OptimizedCost(edges: seq<Edge>, route: seq<string>, depot: string) returns (cost: int)
    ensures cost == TourCost(edges, route, depot)
  {
    ghost var stops := Stops(route, depot);
    ghost var w := LegWeight(edges);
    cost := 0;
    var i := 0;
    while i < |route| + 1
      invariant 0 <= i <= |route| + 1
      invariant cost == Walks.Cost(stops[..i + 1], w)
    {
      var from := if i == 0 then depot else route[i - 1];
      var to := if i == |route| then depot else route[i];
      var edge := FindEdge(edges, from, to);
      if edge.Some? {
        cost := cost + edge.value.cost;
      }
      assert stops[..i + 2] == stops[..i + 1] + [stops[i + 1]];
      Walks.CostAppend(stops[..i + 1], [stops[i + 1]], w);
      LegsAreConsecutiveStops(route, depot, i);
      i := i + 1;
    }
    assert stops[..i + 1] == stops;
  }

  lemma LegWeightSymmetric(edges: seq<Edge>)
    ensures Walks.SymmetricWeight(LegWeight(edges))
  {
    forall a: string, b: string
      ensures LegWeight(edges)(a, b) == LegWeight(edges)(b, a)
    {
      FindEdgeSymmetric(edges, a, b);
    }
  }

  /** Driving the tour backwards costs the same, because the edge search
      ignores direction. */
  lemma ReversedRouteSameCost(edges: seq<Edge>, route: seq<string>, depot: string)
    ensures TourCost(edges, Walks.Reverse(route), depot) == TourCost(edges, route, depot)
  {
    LegWeightSymmetric(edges);
    Walks.ReverseAppend([depot] + route, [depot]);
    Walks.ReverseAppend([depot], route);
    assert Walks.Reverse([depot]) == [depot];
    assert Stops(Walks.Reverse(route), depot) == Walks.Reverse(Stops(route, depot));
    Walks.CostReverse(Stops(route, depot), LegWeight(edges));
  }

  /** `naiveCost`: 0 for an empty route, otherwise the tour cost of the labels
      in alphabetical order. */
  function NaiveCost(edges: seq<Edge>, route: seq<string>, depot: string): (c: int)
    ensures route == [] ==> c == 0
    ensures route != [] ==>
      forall s | Strings.SortedStrings(s) && multiset(s) == multiset(route) :: c == TourCost(edges, s, depot)
  {
    Strings.SortedArrangementUnique(route);
    if |route| > 0 then TourCost(edges, Strings.Sort(route), depot) else 0
  }

  /** The alphabetical cost depends only on which labels the route holds. */
  lemma NaiveCostOrderFree(edges: seq<Edge>, a: seq<string>, b: seq<string>, depot: string)
    requires multiset(a) == multiset(b)
    ensures NaiveCost(edges, a, depot) == NaiveCost(edges, b, depot)
  {
    Strings.SortedUnique(Strings.Sort(a), Strings.Sort(b));
    if a == [] {
      assert |b| == |multiset(b)| == 0;
    }
    if b == [] {
      assert |a| == |multiset(a)| == 0;
    }
  }

  /** A route already in alphabetical order saves nothing. */
  lemma SortedRouteSavesNothing(edges: seq<Edge>, route: seq<string>, depot: string)
    requires route != [] && Strings.SortedStrings(route)
    ensures Savings(edges, route, depot) == 0
  {
    Strings.SortSorted(route);
  }

  /** An empty route is charged its depot-to-depot leg as optimised cost but 0
      as alphabetical cost. */
  lemma EmptyRouteCosts(edges: seq<Edge>, depot: string)
    ensures TourCost(edges, [], depot) == LegCost(edges, depot, depot)
    ensures NaiveCost(edges, [], depot) == 0
  {
    assert Stops([], depot) == [depot, depot];
    assert [depot, depot][1..] == [depot];
    assert LegWeight(edges)(depot, depot) == LegCost(edges, depot, depot);
    assert Walks.Cost([depot], LegWeight(edges)) == 0;
  }

  /** `savings = naiveCost - optimizedCost`. */
  function Savings(edges: seq<Edge>, route: seq<string>, depot: string): int {
    NaiveCost(edges, route, depot) - TourCost(edges, route, depot)
  }

  /** The savings percentage before formatting: the text "0" when the naive
      cost is not positive, else the ratio in percent. */
  datatype Percent = ZeroText | Ratio(value: real)

  function SavingsPercent(savings: int, naive: int): (p: Percent)
    ensures p.ZeroText? <==> naive <= 0
    ensures p.Ratio? ==> p.value * naive as real == savings as real * 100.0
  {
    if naive > 0 then Ratio((savings as real / naive as real) * 100.0) else ZeroText
  }

  /** The number drawn on a node: 0 for the depot, otherwise one more than the
      name's first position in the route (so 0 when it is not on the route). */
  function RouteIndex(name: string, depot: string, route: seq<string>): (n: int)
    ensures 0 <= n <= |route|
    ensures name == depot ==> n == 0
    ensures name != depot ==> (n == 0 <==> name !in route)
    ensures n > 0 ==> route[n - 1] == name && name !in route[..n - 1]
  {
    if name == depot then 0 else IndexOf(route, name) + 1
  }

  /** A node is drawn as on the tour when it is the depot or in the route. */
  predicate OnTour(name: string, depot: string, route: seq<string>) {
    name in route || name == depot
  }

  /** The nodes drawn as on the tour are the depot and the numbered nodes. */
  lemma NumberedIffOnTour(name: string, depot: string, route: seq<string>)
    ensures OnTour(name, depot, route) <==> name == depot || RouteIndex(name, depot, route) > 0
  {
  }
}

=== FILE: route_metrics.dfy ===
/** The route metrics: fuel cost and distance along the closed tour, travel
    time at a fixed average speed, service time per job, and the roundings the
    stored and reported figures go through. */
module RouteMetrics {

  /** `Math.round`: the nearest integer, with halves rounded up. */
  function Round(x: real): (r: int)
    ensures r as real - 0.5 <= x < r as real + 0.5
  {
    (x + 0.5).Floor
  }

  /** `Math.round(x * 100) / 100`: rounding to cents. */
  function RoundCents(x: real): (r: real)
    ensures x - 0.005 < r <= x + 0.005
    ensures (r * 100.0).Floor as real == r * 100.0
  {
    Round(x * 100.0) as real / 100.0
  }

  /** Rounding a whole number changes nothing. */
  lemma RoundWhole(n: int)
    ensures Round(n as real) == n
    ensures RoundCents(n as real) == n as real
  {
    assert Round((n * 100) as real) == n * 100;
  }

  /** Rounding commutes with adding a whole number. */
  lemma RoundShift(x: real, n: int)
    ensures Round(x + n as real) == Round(x) + n
  {
    var r := Round(x) + n;
    assert r as real - 0.5 <= x + n as real < r as real + 0.5;
  }

  /** `(distance / 50) * 60`: minutes of driving at 50 distance units per hour. */
  function TravelMinutes(distance: int): (t: real)
    ensures t * 50.0 == distance as real * 60.0
    ensures distance >= 0 ==> t >= 0.0
  {
    (distance as real / 50.0) * 60.0
  }

  /** Every five units of distance take six minutes. */
  lemma TravelMinutesWhole(distance: int)
    requires distance % 5 == 0
    ensures TravelMinutes(distance) == ((distance / 5) * 6) as real
  {
  }

  /** The metrics of one solved day. */
  datatype Totals = Totals(distance: int, travel: real, service: int, duration: real)

  /** `distance` is the tour cost, `service` the per-job time over all jobs,
      and the duration the travel time plus the service time. */
  function Compute(tourCost: int, jobs: nat, perJob: int): (t: Totals)
    ensures t.distance == tourCost
    ensures t.travel * 50.0 == tourCost as real * 60.0
    ensures t.service == jobs * perJob
    ensures t.duration == t.travel + t.service as real
  {
    var travel := TravelMinutes(tourCost);
    Totals(tourCost, travel, jobs * perJob, travel + (jobs * perJob) as real)
  }

  /** The stored duration is the rounded travel time plus the service time. */
  lemma DurationRounding(tourCost: int, jobs: nat, perJob: int)
    ensures Round(Compute(tourCost, jobs, perJob).duration)
         == Round(TravelMinutes(tourCost)) + jobs * perJob
  {
    RoundShift(TravelMinutes(tourCost), jobs * perJob);
  }
}

=== FILE: scenario.dfy ===
/** Two worked examples through the model.
    A three-stop day: depot `Z` and jobs at locations `A`, `B` and `C`. The
    built-in table gives the matrix of `IsDay`; the solver visits A, B, C, which
    is the cheapest closed tour, at a fuel cost of 50 + 20 + 30 + 70 = 170.
    An asymmetric four-node matrix (`IsLopsided`), on which the 2-opt loop
    never stops. */
module Scenario {
  import opened Common
  import opened Matrices
  import opened Jobs
  import opened FuelCost
  import Walks
  import Labels
  import CostMatrix
  import NearestNeighbour
  import TwoOpt
  import Solver
  import Optimizer
  import RouteMetrics
  import DateOverride

  /** The matrix of the example: nodes 0, 1, 2 are the jobs at A, B, C and
      node 3 is the depot Z; A-B costs 20, A-C 40, B-C 30, and Z-A, Z-B, Z-C
      cost 50, 60, 70. */
  predicate IsDay(m: Matrix) {
    && Optimizer.DayShaped(m, 3)
    && m[0][1] == 20 && m[0][2] == 40 && m[0][3] == 50
    && m[1][2] == 30 && m[1][3] == 60 && m[2][3] == 70
  }

  /** The depot, A, B, C and the depot again. */
  const Best: seq<nat> := [3, 0, 1, 2, 3]

  /** The table costs of the six pairs of the day's labels. */
  lemma DayTableCosts()
    ensures TableCost(DefaultEdges, "A", "B") == 20
    ensures TableCost(DefaultEdges, "A", "C") == 40
    ensures TableCost(DefaultEdges, "B", "C") == 30
    ensures TableCost(DefaultEdges, "A", "Z") == 50
    ensures TableCost(DefaultEdges, "B", "Z") == 60
    ensures TableCost(DefaultEdges, "C", "Z") == 70
  {
    assert DefaultEdges["A"] == map["Z" := 50, "B" := 20, "C" := 40, "D" := 60, "E" := 80];
    assert DefaultEdges["B"] == map["Z" := 60, "A" := 20, "C" := 30, "D" := 50, "E" := 70];
    assert DefaultEdges["C"] == map["Z" := 70, "A" := 40, "B" := 30, "D" := 25, "E" := 50];
  }

  /** The filled-in table yields the example's matrix for the labels A, B, C
      and depot Z. */
  lemma DayMatrixOfLabels(jobLabels: seq<string>, depot: string)
    requires jobLabels == ["A", "B", "C"] && depot == "Z"
    ensures IsDay(CostMatrix.ForDay(jobLabels, depot))
  {
    var m := CostMatrix.ForDay(jobLabels, depot);
    var labels := CostMatrix.NodeLabels(jobLabels, depot);
    assert labels[0] == "A" && labels[1] == "B" && labels[2] == "C" && labels[3] == "Z";
    DayTableCosts();
    assert m[0][1] == 20 by { assert m[0][1] == TableCost(DefaultEdges, labels[0], labels[1]); }
    assert m[0][2] == 40 by { assert m[0][2] == TableCost(DefaultEdges, labels[0], labels[2]); }
    assert m[0][3] == 50 by { assert m[0][3] == TableCost(DefaultEdges, labels[0], labels[3]); }
    assert m[1][2] == 30 by { assert m[1][2] == TableCost(DefaultEdges, labels[1], labels[2]); }
    assert m[1][3] == 60 by { assert m[1][3] == TableCost(DefaultEdges, labels[1], labels[3]); }
    assert m[2][3] == 70 by { assert m[2][3] == TableCost(DefaultEdges, labels[2], labels[3]); }
  }

  /** The cost of a closed tour over four nodes, leg by leg. */
  lemma FiveStopCost(m: Matrix, r: seq<nat>)
    requires |r| == 5
    ensures TourCost(m, r) == Weight(m)(r[0], r[1]) + Weight(m)(r[1], r[2])
                            + Weight(m)(r[2], r[3]) + Weight(m)(r[3], r[4])
  {
    var w := Weight(m);
    assert r[3..][1..] == r[4..];
    assert Walks.Cost(r[3..], w) == w(r[3], r[4]);
    assert r[2..][1..] == r[3..];
    assert Walks.Cost(r[2..], w) == w(r[2], r[3]) + Walks.Cost(r[3..], w);
    assert r[1..][1..] == r[2..];
    assert Walks.Cost(r[1..], w) == w(r[1], r[2]) + Walks.Cost(r[2..], w);
  }

  /** The stops between the depot ends of a closed tour over four nodes are 0, 1 and 2
      in some order. */
  lemma InteriorStops(r: seq<nat>)
    requires ClosedTour(r, 4, 3)
    ensures r[1] < 3 && r[2] < 3 && r[3] < 3
    ensures r[1] != r[2] && r[1] != r[3] && r[2] != r[3]
  {
    var s := r[1..4];
    assert Nodes(4) - {3} == {0, 1, 2};
    assert multiset(s) == multiset{0, 1, 2};
    assert s == [s[0], s[1], s[2]];
    assert multiset{s[0], s[1], s[2]} == multiset{0, 1, 2};
  }

  /** Every closed tour of the example costs at least 170, and only A, B, C
      and its reverse cost exactly that. */
  lemma ClosedToursCostAtLeast170(m: Matrix, r: seq<nat>)
    requires IsDay(m) && ClosedTour(r, 4, 3)
    ensures TourCost(m, r) >= 170
    ensures TourCost(m, r) == 170 ==> r == Best || r == [3, 2, 1, 0, 3]
  {
    InteriorStops(r);
    FiveStopCost(m, r);
    assert m[1][0] == 20 && m[2][0] == 40 && m[3][0] == 50;
    assert m[2][1] == 30 && m[3][1] == 60 && m[3][2] == 70;
    assert r == [3, r[1], r[2], r[3], 3];
  }

  lemma BestIsClosedTour(m: Matrix)
    requires IsDay(m)
    ensures ClosedTour(Best, 4, 3)
    ensures TourCost(m, Best) == 170
  {
    assert Nodes(4) - {3} == {0, 1, 2};
    assert Best[1..4] == [0, 1, 2];
    FiveStopCost(m, Best);
  }

  /** The nearest-neighbour construction from Z takes A (50), then B (20), then
      C, the only node left. */
  lemma NearestNeighbourTour(m: Matrix)
    requires IsDay(m)
    ensures NearestNeighbour.Tour(m, 3) == Best
  {
    var t := NearestNeighbour.Tour(m, 3);
    InteriorStops(t);
    assert m[3][1] == 60 && m[3][2] == 70;
    assert Elems(t[..1]) == {3};
    assert NearestNeighbour.NearestAt(m, t, 1);
    assert m[3][t[1]] <= m[3][0];
    assert t[1] == 0;
    assert Elems(t[..2]) == {3, 0};
    assert NearestNeighbour.NearestAt(m, t, 2);
    assert m[0][t[2]] <= m[0][1];
    assert t[2] == 1;
    assert t == [3, t[1], t[2], t[3], 3];
  }

  /** The 2-opt phase leaves A, B, C unchanged: a scan that reversed anything
      would have produced a cheaper closed tour, and there is none. */
  lemma TwoOptKeepsBest(m: Matrix)
    requires IsDay(m)
    ensures TwoOpt.Improve(m, Best) == Best
  {
    BestIsClosedTour(m);
    ClosedTourInBounds(Best, 4, 3);
    var res := TwoOpt.Scan(m, Best, 1, 2, false);
    TwoOpt.ScanKeeps(m, Best, 1, 2, false);
    TwoOpt.ScanOutcome(m, Best, 1, 2, false);
    Solver.ClosedTourPermutation(Best, res.0, 4, 3);
    ClosedToursCostAtLeast170(m, res.0);
    assert res == (Best, false);
  }

  /** Removing the depot ends of A, B, C leaves the three jobs. */
  lemma StripBest()
    ensures Solver.Strip(Best, 3) == [0, 1, 2]
  {
    assert Nodes(4) - {3} == {0, 1, 2};
    assert Best[1..4] == [0, 1, 2];
    Solver.StripClosedTour(Best, 4, 3);
  }

  /** The solver's order is A, B, C. */
  lemma SolvedOrder(m: Matrix)
    requires IsDay(m)
    ensures Solver.SolveTour(m, 3) == [0, 1, 2]
  {
    NearestNeighbourTour(m);
    TwoOptKeepsBest(m);
    StripBest();
  }

  /** The letter after "Site " stands alone, so it is the job's label. */
  lemma SiteLabel(c: char)
    requires 'A' <= c <= 'Z'
    ensures Labels.ExtractLabel("Site " + [c]) == Some(c)
  {
    var s := "Site " + [c];
    assert Labels.LoneLetterAt(s, 5);
    forall k | 0 <= k < 5
      ensures !Labels.LoneLetterAt(s, k)
    {
    }
    Labels.ExtractLabelLoneLetter(s, 5);
  }

  /** A day of three undated jobs whose addresses yield the labels A, B and C,
      such as "Site A", "Site B" and "Site C". */
  predicate ThreeStops(orders: seq<Order>) {
    && |orders| == 3
    && Labels.ExtractLabel(AddressText(orders[0])) == Some('A')
    && Labels.ExtractLabel(AddressText(orders[1])) == Some('B')
    && Labels.ExtractLabel(AddressText(orders[2])) == Some('C')
    && DateOverride.NoneDated(orders)
  }

  /** A job whose address yields letter `c` has the one-letter label `c`. */
  lemma LabelAt(orders: seq<Order>, k: nat, c: char)
    requires k < |orders|
    requires Labels.ExtractLabel(AddressText(orders[k])) == Some(c)
    ensures Optimizer.JobLabels(orders)[k] == [c]
  {
  }

  /** The solver labels the three jobs A, B and C. */
  lemma OrdersLabels(orders: seq<Order>)
    requires ThreeStops(orders)
    ensures Optimizer.JobLabels(orders) == ["A", "B", "C"]
  {
    LabelAt(orders, 0, 'A');
    LabelAt(orders, 1, 'B');
    LabelAt(orders, 2, 'C');
    ThreeElements(Optimizer.JobLabels(orders), "A", "B", "C");
  }

  lemma ThreeElements<T>(s: seq<T>, a: T, b: T, c: T)
    requires |s| == 3 && s[0] == a && s[1] == b && s[2] == c
    ensures s == [a, b, c]
  {
  }

  lemma OrdersMatrix(orders: seq<Order>, req: Optimizer.Request)
    requires ThreeStops(orders)
    requires Optimizer.DepotLabel(req) == "Z"
    ensures IsDay(Optimizer.DayMatrix(orders, req))
  {
    OrdersLabels(orders);
    DayMatrixOfLabels(Optimizer.JobLabels(orders), Optimizer.DepotLabel(req));
  }

  /** The ids of the three jobs in their given order. */
  function InOrder(orders: seq<Order>): seq<string>
    requires |orders| == 3
  {
    [orders[0].id, orders[1].id, orders[2].id]
  }

  /** On the example's matrix the optimiser's route is A, B, C at a fuel cost
      of 170. */
  lemma ThreeStopRoute(m: Matrix)
    requires IsDay(m)
    ensures Optimizer.Route(m, 3) == [0, 1, 2]
    ensures Optimizer.RouteCost(m, 3) == 170
  {
    SolvedOrder(m);
    BestIsClosedTour(m);
    ClosingBest(Optimizer.Route(m, 3));
  }

  /** Closing A, B, C at the depot gives `Best`. */
  lemma ClosingBest(r: seq<nat>)
    requires r == [0, 1, 2]
    ensures [3] + r + [3] == Best
  {
  }

  /** Without appointment times the final order is A, B, C. */
  lemma ThreeStopOrder(orders: seq<Order>, m: Matrix)
    requires ThreeStops(orders) && IsDay(m)
    ensures Optimizer.FinalRouteOrder(orders, m) == InOrder(orders)
  {
    ThreeStopRoute(m);
    Optimizer.NoDatesKeepsSolverOrder(orders, m);
    var f := Optimizer.FinalRouteOrder(orders, m);
    var route := Optimizer.Route(m, 3);
    assert route[0] == 0 && route[1] == 1 && route[2] == 2;
    ThreeElements(f, orders[0].id, orders[1].id, orders[2].id);
  }

  /** The solved answer on the three-stop day with the default service time. */
  lemma ThreeStopMetrics(technicianId: string, day: int, orders: seq<Order>, req: Optimizer.Request, m: Matrix)
    requires ThreeStops(orders) && IsDay(m)
    requires Optimizer.DepotLabel(req) == "Z" && Optimizer.ServiceTime(req) == 30
    ensures Optimizer.SolvedOn(technicianId, day, None, orders, req, m)
         == Optimizer.Response(
              Schedule(technicianId, day, InOrder(orders), Some(170.0), Some(294.0)),
              Some(Optimizer.Metrics(170.0, 170.0, 294.0, 204.0, 90, InOrder(orders), "Z")))
  {
    ThreeStopRoute(m);
    ThreeStopOrder(orders, m);
    var t := RouteMetrics.Compute(170, 3, 30);
    assert t.travel == 204.0 && t.duration == 294.0 && t.service == 90;
    RouteMetrics.RoundWhole(170);
    RouteMetrics.RoundWhole(204);
    RouteMetrics.RoundWhole(294);
  }

  /** Optimising the three-stop day for a known technician, with the default
      depot and service time and nothing stored yet, stores and reports the jobs
      in the order A, B, C with distance and fuel cost 170, travel time
      170 / 50 * 60 = 204 minutes, service time 3 * 30 = 90 minutes and duration
      294 minutes. */
  lemma ThreeStopDay(req: Optimizer.Request, technicians: set<string>, day: int, orders: seq<Order>)
    requires Present(req.technicianId) && req.technicianId.value in technicians
    requires req.depotLabel.None? && req.serviceTimePerJob.None?
    requires ThreeStops(orders)
    ensures Optimizer.Optimize(req, technicians, day, orders, None)
         == Ok(Optimizer.Response(
              Schedule(req.technicianId.value, day, InOrder(orders), Some(170.0), Some(294.0)),
              Some(Optimizer.Metrics(170.0, 170.0, 294.0, 204.0, 90, InOrder(orders), "Z"))))
  {
    var m := Optimizer.DayMatrix(orders, req);
    OrdersMatrix(orders, req);
    ThreeStopMetrics(req.technicianId.value, day, orders, req, m);
  }

  /** An asymmetric matrix over four nodes, with node 3 as the depot. On it the
      2-opt loop of the source never stops; the handler never builds such a
      matrix, because the day's matrix is symmetric (`CostMatrix.ForDay`). */
  predicate IsLopsided(m: Matrix) {
    && |m| == 4
    && m[0] == [0, 4, 0, 6] && m[1] == [9, 0, 0, 5]
    && m[2] == [6, 6, 0, 4] && m[3] == [0, 1, 1, 0]
  }

  /** The nearest-neighbour tour of the asymmetric matrix from depot 3. */
  const Forth: seq<nat> := [3, 0, 2, 1, 3]

  /** The tour one 2-opt pass turns `Forth` into. */
  const Back: seq<nat> := [3, 1, 2, 0, 3]

  lemma LopsidedSquare(m: Matrix)
    requires IsLopsided(m)
    ensures IsSquare(m) && !Symmetric(m)
    ensures InBounds(Forth, 4) && InBounds(Back, 4)
  {
    assert m[0][1] != m[1][0];
  }

  /** From depot 3 the construction takes 0 (cost 0), then 2 (cost 0), then 1. */
  lemma LopsidedNearestNeighbour(m: Matrix)
    requires IsLopsided(m)
    ensures IsSquare(m) && NearestNeighbour.Tour(m, 3) == Forth
  {
    LopsidedSquare(m);
    var t := NearestNeighbour.Tour(m, 3);
    InteriorStops(t);
    assert Elems(t[..1]) == {3};
    assert NearestNeighbour.NearestAt(m, t, 1);
    assert m[3][t[1]] < m[3][1] && m[3][t[1]] < m[3][2];
    assert t[1] == 0;
    assert Elems(t[..2]) == {3, 0};
    assert NearestNeighbour.NearestAt(m, t, 2);
    assert m[0][t[2]] <= m[0][2];
    assert t[2] == 2;
    assert t == [3, t[1], t[2], t[3], 3];
  }

  /** The move reversing positions `i..j` of a five-stop tour, stop by stop. */
  lemma FiveStopMove(r: seq<nat>, i: nat, j: nat, r': seq<nat>)
    requires |r| == 5 && 1 <= i < j <= 3
    requires |r'| == 5 && r'[0] == r[0] && r'[4] == r[4]
    requires forall k | i <= k <= j :: r'[k] == r[i + j - k]
    requires forall k | 1 <= k < i || j < k <= 3 :: r'[k] == r[k]
    ensures TwoOpt.ReverseSegment(r, i, j) == r'
  {
    var s := TwoOpt.ReverseSegment(r, i, j);
    TwoOpt.ReverseSegmentShape(r, i, j);
    forall k | 0 <= k < 5
      ensures s[k] == r'[k]
    {
    }
  }

  /** One pass over `Forth` makes three reversals and ends at `Back`. */
  lemma LopsidedPassForth(m: Matrix)
    requires IsLopsided(m)
    ensures IsSquare(m) && TwoOpt.Scan(m, Forth, 1, 2, false) == (Back, true)
  {
    LopsidedSquare(m);
    var r1: seq<nat> := [3, 2, 0, 1, 3];
    var r2: seq<nat> := [3, 1, 0, 2, 3];
    FiveStopMove(Forth, 1, 2, r1);
    FiveStopMove(r1, 1, 3, r2);
    FiveStopMove(r2, 2, 3, Back);
    assert TwoOpt.Improves(m, Forth, 1, 2);
    assert TwoOpt.Scan(m, Forth, 1, 2, false) == TwoOpt.Scan(m, r1, 1, 3, true);
    assert TwoOpt.Improves(m, r1, 1, 3);
    assert TwoOpt.Scan(m, r1, 1, 3, true) == TwoOpt.Scan(m, r2, 2, 3, true);
    assert TwoOpt.Improves(m, r2, 2, 3);
    assert TwoOpt.Scan(m, r2, 2, 3, true) == TwoOpt.Scan(m, Back, 2, 4, true);
  }

  /** One pass over `Back` makes one reversal and returns to `Forth`. */
  lemma LopsidedPassBack(m: Matrix)
    requires IsLopsided(m)
    ensures IsSquare(m) && TwoOpt.Scan(m, Back, 1, 2, false) == (Forth, true)
  {
    LopsidedSquare(m);
    FiveStopMove(Back, 1, 3, Forth);
    assert !TwoOpt.Improves(m, Back, 1, 2);
    assert TwoOpt.Improves(m, Back, 1, 3);
    assert TwoOpt.Scan(m, Back, 1, 3, false) == TwoOpt.Scan(m, Forth, 2, 3, true);
    assert !TwoOpt.Improves(m, Forth, 2, 3);
  }

  /** On an asymmetric matrix the source's 2-opt loop can run forever: each
      pass from the nearest-neighbour tour reports an improvement and the next
      pass undoes it, and the first of those "improvements" raises the cost. */
  lemma LopsidedTwoOptCycles(m: Matrix)
    requires IsLopsided(m)
    ensures IsSquare(m) && !Symmetric(m)
    ensures NearestNeighbour.Tour(m, 3) == Forth
    ensures TwoOpt.Scan(m, Forth, 1, 2, false) == (Back, true)
    ensures TwoOpt.Scan(m, Back, 1, 2, false) == (Forth, true)
    ensures TourCost(m, Back) > TourCost(m, Forth)
  {
    LopsidedSquare(m);
    LopsidedNearestNeighbour(m);
    LopsidedPassForth(m);
    LopsidedPassBack(m);
    FiveStopCost(m, Forth);
    FiveStopCost(m, Back);
  }
}

=== FILE: solver.dfy ===
/** The route solver (`solveTSP`): nearest-neighbour construction from the
    depot, 2-opt improvement, then removal of the depot stops. Nodes are the
    indices of the cost matrix; the caller maps them back to jobs. */
module Solver {
  import opened Common
  import opened Matrices
  import NearestNeighbour
  import TwoOpt

  /** The stops of `s` other than the depot `d`, in order. */
  function DropDepot(s: seq<nat>, d: nat): (r: seq<nat>)
    ensures d !in r
    ensures forall x | x in r :: x in s
    ensures d !in s ==> r == s
  {
    if s == [] then []
    else if s[0] == d then DropDepot(s[1..], d)
    else [s[0]] + DropDepot(s[1..], d)
  }

  /** Keep the first stop, the interior stops that are not the depot and the last
      stop, then drop the first and the last. */
  function Strip(route: seq<nat>, d: nat): (r: seq<nat>)
    requires |route| >= 2
    ensures d !in r
  {
    var filtered := [route[0]] + DropDepot(route[1..|route| - 1], d) + [route[|route| - 1]];
    filtered[1..|filtered| - 1]
  }

  /** A reordering of a closed tour that keeps both ends is a closed tour. */
  lemma ClosedTourPermutation(t: seq<nat>, r: seq<nat>, n: nat, d: nat)
    requires ClosedTour(t, n, d)
    requires |r| == |t| && r[0] == t[0] && r[n] == t[n]
    requires multiset(r) == multiset(t)
    ensures ClosedTour(r, n, d)
  {
    assert t == [t[0]] + t[1..n] + [t[n]];
    assert r == [r[0]] + r[1..n] + [r[n]];
    assert multiset(r[1..n]) == multiset(r) - multiset{d, d};
  }

  /** The depot stops of a closed tour are its two ends only. */
  lemma StripClosedTour(r: seq<nat>, n: nat, d: nat)
    requires ClosedTour(r, n, d)
    ensures Strip(r, d) == r[1..n]
  {
    assert d !in multiset(Nodes(n) - {d});
    assert d !in r[1..n];
  }

  /** A reordering of a closed tour that keeps its ends is the depot, its
      stripped interior, and the depot again. */
  lemma StripReordered(t: seq<nat>, r: seq<nat>, n: nat, d: nat)
    requires ClosedTour(t, n, d)
    requires |r| == |t| && r[0] == t[0] && r[n] == t[n]
    requires multiset(r) == multiset(t)
    ensures ClosedTour(r, n, d)
    ensures r == [d] + Strip(r, d) + [d]
  {
    ClosedTourPermutation(t, r, n, d);
    StripClosedTour(r, n, d);
    assert r == [d] + r[1..n] + [d];
  }

  /** The job visiting order: the non-depot nodes, each exactly once, in the
      order of a 2-opt-optimal improvement of the nearest-neighbour tour. A
      matrix of one node yields `[0]` and an empty one `[]`, as the source's
      early returns do. */
  function SolveTour(m: Matrix, d: nat): (r: seq<nat>)
    requires Symmetric(m)
    requires |m| >= 2 ==> d < |m|
    ensures |m| == 0 ==> r == []
    ensures |m| == 1 ==> r == [0]
    ensures |m| >= 2 ==> multiset(r) == multiset(Nodes(|m|) - {d})
    ensures |m| >= 2 ==> ClosedTour([d] + r + [d], |m|, d)
    ensures |m| >= 2 ==> TourCost(m, [d] + r + [d]) <= TourCost(m, NearestNeighbour.Tour(m, d))
  {
    if |m| == 0 then []
    else if |m| == 1 then [0]
    else
      var tour := NearestNeighbour.Tour(m, d);
      ClosedTourInBounds(tour, |m|, d);
      var improved := TwoOpt.Improve(m, tour);
      StripReordered(tour, improved, |m|, d);
      Strip(improved, d)
  }

  /** The solved tour, closed at the depot, admits no improving 2-opt move. */
  lemma SolveTourLocallyOptimal(m: Matrix, d: nat)
    requires Symmetric(m) && 2 <= |m| && d < |m|
    ensures InBounds([d] + SolveTour(m, d) + [d], |m|)
    ensures TwoOpt.LocallyOptimal(m, [d] + SolveTour(m, d) + [d])
  {
    var tour := NearestNeighbour.Tour(m, d);
    ClosedTourInBounds(tour, |m|, d);
    var improved := TwoOpt.Improve(m, tour);
    StripReordered(tour, improved, |m|, d);
  }
}

=== FILE: strings.dfy ===
/** The default order of `Array.prototype.sort` on strings: lexicographic by
    character, a proper prefix first. */
module Strings {

  predicate StrLe(a: string, b: string) {
    if a == [] then true
    else if b == [] then false
    else if a[0] != b[0] then a[0] < b[0]
    else StrLe(a[1..], b[1..])
  }

  lemma {:induction false} StrLeReflexive(a: string)
    ensures StrLe(a, a)
  {
    if a != [] {
      StrLeReflexive(a[1..]);
    }
  }

  lemma {:induction false} StrLeTotal(a: string, b: string)
    ensures StrLe(a, b) || StrLe(b, a)
  {
    if a != [] && b != [] && a[0] == b[0] {
      StrLeTotal(a[1..], b[1..]);
    }
  }

  lemma {:induction false} StrLeAntisymmetric(a: string, b: string)
    requires StrLe(a, b) && StrLe(b, a)
    ensures a == b
  {
    if a != [] && b != [] {
      StrLeAntisymmetric(a[1..], b[1..]);
      assert a == [a[0]] + a[1..];
      assert b == [b[0]] + b[1..];
    }
  }

  lemma {:induction false} StrLeTransitive(a: string, b: string, c: string)
    requires StrLe(a, b) && StrLe(b, c)
    ensures StrLe(a, c)
  {
    if a != [] && b != [] && c != [] && a[0] == b[0] == c[0] {
      StrLeTransitive(a[1..], b[1..], c[1..]);
    }
  }

  /** `a` and `b` agree on their first `k` characters and differ at `k`, where
      `a` has the smaller character. */
  predicate FirstDifferenceSmaller(a: string, b: string, k: nat) {
    && k < |a| && k < |b| && a[k] < b[k]
    && forall i | 0 <= i < k :: a[i] == b[i]
  }

  /** `a` sorts first exactly when it is a prefix of `b` or, at the first
      position where they differ, its character is the smaller. */
  lemma {:induction false} StrLeCharacterised(a: string, b: string)
    ensures StrLe(a, b) <==> (|a| <= |b| && a == b[..|a|]) || exists k: nat :: FirstDifferenceSmaller(a, b, k)
  {
    if a != [] && b != [] && a[0] == b[0] {
      StrLeCharacterised(a[1..], b[1..]);
      if |a[1..]| <= |b[1..]| && a[1..] == b[1..][..|a[1..]|] {
        assert a == [a[0]] + a[1..] && b[..|a|] == [b[0]] + b[1..][..|a[1..]|];
      } else if StrLe(a, b) {
        var k: nat :| FirstDifferenceSmaller(a[1..], b[1..], k);
        assert FirstDifferenceSmaller(a, b, k + 1);
      }
      if |a| <= |b| && a == b[..|a|] {
        assert a[1..] == b[1..][..|a[1..]|];
      }
      if exists k: nat :: FirstDifferenceSmaller(a, b, k) {
        var k: nat :| FirstDifferenceSmaller(a, b, k);
        assert a[k] != b[k];
        assert FirstDifferenceSmaller(a[1..], b[1..], k - 1);
      }
    } else if a != [] && b != [] && a[0] < b[0] {
      assert FirstDifferenceSmaller(a, b, 0);
    }
  }

  predicate SortedStrings(s: seq<string>) {
    forall i, j | 0 <= i < j < |s| :: StrLe(s[i], s[j])
  }

  /** Insert `x` before the first element it precedes. */
  function Insert(x: string, s: seq<string>): (r: seq<string>)
    ensures multiset(r) == multiset(s) + multiset{x}
  {
    if s == [] || StrLe(x, s[0]) then [x] + s
    else
      assert s == [s[0]] + s[1..];
      [s[0]] + Insert(x, s[1..])
  }

  lemma {:induction false} InsertSorted(x: string, s: seq<string>)
    requires SortedStrings(s)
    ensures SortedStrings(Insert(x, s))
  {
    var r := Insert(x, s);
    if s == [] || StrLe(x, s[0]) {
      forall k | 0 <= k < |s| ensures StrLe(x, s[k]) {
        if k > 0 { StrLeTransitive(x, s[0], s[k]); }
      }
      assert forall k | 0 < k < |r| :: r[k] == s[k - 1];
    } else {
      var rest := Insert(x, s[1..]);
      InsertSorted(x, s[1..]);
      StrLeTotal(x, s[0]);
      assert s == [s[0]] + s[1..];
      forall k | 0 <= k < |rest| ensures StrLe(s[0], rest[k]) {
        assert rest[k] in multiset(rest);
        if rest[k] != x {
          assert rest[k] in multiset(s[1..]);
          var q :| 0 <= q < |s[1..]| && s[1..][q] == rest[k];
          assert s[q + 1] == rest[k];
        }
      }
      assert r == [s[0]] + rest;
      assert forall k | 0 < k < |r| :: r[k] == rest[k - 1];
    }
  }

  /** `[...s].sort()`. */
  function Sort(s: seq<string>): (r: seq<string>)
    ensures multiset(r) == multiset(s)
    ensures SortedStrings(r)
  {
    if s == [] then []
    else
      assert s == [s[0]] + s[1..];
      InsertSorted(s[0], Sort(s[1..]));
      Insert(s[0], Sort(s[1..]))
  }

  /** Two sorted arrangements of the same strings are equal, so the sorted
      order does not depend on the sorting algorithm. */
  lemma {:induction false} SortedUnique(a: seq<string>, b: seq<string>)
    requires multiset(a) == multiset(b)
    requires SortedStrings(a) && SortedStrings(b)
    ensures a == b
    decreases |a|
  {
    if a == [] {
      assert |b| == |multiset(b)| == 0;
    } else {
      SortedSameHead(a, b);
      assert a == [a[0]] + a[1..];
      assert b == [b[0]] + b[1..];
      assert multiset(a[1..]) == multiset(b[1..]) by {
        assert multiset(a[1..]) == multiset(a) - multiset{a[0]};
        assert multiset(b[1..]) == multiset(b) - multiset{b[0]};
      }
      SortedUnique(a[1..], b[1..]);
    }
  }

  /** `Sort` computes the one sorted arrangement of its input. */
  lemma SortedArrangementUnique(s: seq<string>)
    ensures forall t | SortedStrings(t) && multiset(t) == multiset(s) :: t == Sort(s)
  {
    forall t | SortedStrings(t) && multiset(t) == multiset(s)
      ensures t == Sort(s)
    {
      SortedUnique(t, Sort(s));
    }
  }

  lemma SortedSameHead(a: seq<string>, b: seq<string>)
    requires multiset(a) == multiset(b) && a != []
    requires SortedStrings(a) && SortedStrings(b)
    ensures b != [] && a[0] == b[0]
  {
    assert a[0] in multiset(b);
    assert b[0] in multiset(a);
    var i :| 0 <= i < |b| && b[i] == a[0];
    var j :| 0 <= j < |a| && a[j] == b[0];
    StrLeReflexive(a[0]);
    assert StrLe(b[0], a[0]) by { if i > 0 { assert StrLe(b[0], b[i]); } }
    assert StrLe(a[0], b[0]) by { if j > 0 { assert StrLe(a[0], a[j]); } }
    StrLeAntisymmetric(a[0], b[0]);
  }

  /** Sorting a sorted sequence leaves it as it is. */
  lemma SortSorted(s: seq<string>)
    requires SortedStrings(s)
    ensures Sort(s) == s
  {
    SortedUnique(Sort(s), s);
  }
}

=== FILE: two_opt.dfy ===
/** The 2-opt improvement phase of the route solver. A move `(i, j)` reverses
    the stops `r[i..j]`; it is taken when the two legs it creates are cheaper
    than the two legs it removes. The scan visits the pairs in order and keeps
    going after a reversal, and whole scans repeat until one reverses nothing. */
module TwoOpt {
  import opened Common
  import opened Matrices
  import Walks

  /** A move that keeps both depot ends in place. */
  predicate ValidMove(len: nat, i: nat, j: nat) {
    1 <= i < j <= len - 2
  }

  /** The cost of the two legs a move removes. */
  function Before(m: Matrix, r: seq<nat>, i: nat, j: nat): int
    requires IsSquare(m) && InBounds(r, |m|) && ValidMove(|r|, i, j)
  {
    m[r[i - 1]][r[i]] + m[r[j]][r[j + 1]]
  }

  /** The cost of the two legs a move creates. */
  function After(m: Matrix, r: seq<nat>, i: nat, j: nat): int
    requires IsSquare(m) && InBounds(r, |m|) && ValidMove(|r|, i, j)
  {
    m[r[i - 1]][r[j]] + m[r[i]][r[j + 1]]
  }

  predicate Improves(m: Matrix, r: seq<nat>, i: nat, j: nat)
    requires IsSquare(m) && InBounds(r, |m|) && ValidMove(|r|, i, j)
  {
    After(m, r, i, j) < Before(m, r, i, j)
  }

  /** `r` with the stops at positions `i..j` (inclusive) in reverse order. */
  function ReverseSegment(r: seq<nat>, i: nat, j: nat): (r': seq<nat>)
    requires i <= j < |r|
    ensures |r'| == |r|
  {
    r[..i] + Walks.Reverse(r[i..j + 1]) + r[j + 1..]
  }

  /** A reversal moves only the stops inside the segment, mirroring them, and
      so keeps the same stops. */
  lemma ReverseSegmentShape(r: seq<nat>, i: nat, j: nat)
    requires i <= j < |r|
    ensures var r' := ReverseSegment(r, i, j);
            && (forall k | 0 <= k < i || j < k < |r| :: r'[k] == r[k])
            && (forall k | i <= k <= j :: r'[k] == r[i + j - k])
            && multiset(r') == multiset(r)
  {
    var s := r[i..j + 1];
    var rs := Walks.Reverse(s);
    var r' := ReverseSegment(r, i, j);
    forall k | j < k < |r|
      ensures r'[k] == r[k]
    {
      assert r'[k] == r[j + 1..][k - j - 1];
    }
    forall k | i <= k <= j
      ensures r'[k] == r[i + j - k]
    {
      assert r'[k] == rs[k - i];
    }
    Walks.ReverseMultiset(s);
    assert r == r[..i] + s + r[j + 1..];
  }

  /** `r'` is `r` with its interior stops rearranged: the same length, the same
      two ends, the same stops, all of them below `n`. */
  predicate Rearranged(r: seq<nat>, r': seq<nat>, n: nat) {
    && |r'| == |r| && |r| >= 1
    && r'[0] == r[0] && r'[|r| - 1] == r[|r| - 1]
    && multiset(r') == multiset(r) && InBounds(r', n)
  }

  lemma RearrangedTransitive(r: seq<nat>, r': seq<nat>, r'': seq<nat>, n: nat)
    requires Rearranged(r, r', n) && Rearranged(r', r'', n)
    ensures Rearranged(r, r'', n)
  {
  }

  /** A move keeps both depot ends, the stops, and their bounds. */
  lemma ReverseSegmentKeeps(r: seq<nat>, i: nat, j: nat, n: nat)
    requires 1 <= i <= j < |r| - 1 && InBounds(r, n)
    ensures Rearranged(r, ReverseSegment(r, i, j), n)
  {
    ReverseSegmentShape(r, i, j);
    ReverseSegmentInBounds(r, i, j, n);
  }

  lemma ReverseSegmentInBounds(r: seq<nat>, i: nat, j: nat, n: nat)
    requires i <= j < |r| && InBounds(r, n)
    ensures InBounds(ReverseSegment(r, i, j), n)
  {
    var r' := ReverseSegment(r, i, j);
    ReverseSegmentShape(r, i, j);
    forall k | 0 <= k < |r'| ensures r'[k] < n {
      if i <= k <= j {
        assert r'[k] == r[i + j - k];
      }
    }
  }

  /** On a symmetric matrix a move changes the tour cost by exactly the change
      in its two boundary legs, because the reversed stretch costs the same
      walked backwards. */
  lemma ReverseSegmentCost(m: Matrix, r: seq<nat>, i: nat, j: nat)
    requires Symmetric(m) && InBounds(r, |m|) && ValidMove(|r|, i, j)
    ensures TourCost(m, ReverseSegment(r, i, j)) == TourCost(m, r) - Before(m, r, i, j) + After(m, r, i, j)
  {
    var w := Weight(m);
    var a, s, b := r[..i], r[i..j + 1], r[j + 1..];
    var rs := Walks.Reverse(s);
    assert r == a + (s + b);
    assert ReverseSegment(r, i, j) == a + (rs + b);
    Walks.CostAppend(a, s + b, w);
    Walks.CostAppend(s, b, w);
    Walks.CostAppend(a, rs + b, w);
    Walks.CostAppend(rs, b, w);
    SymmetricWeightOf(m);
    Walks.CostReverse(s, w);
  }

  /** No move at or after `(i, j)` in scan order improves `r`. */
  predicate NoImprovingFrom(m: Matrix, r: seq<nat>, i: nat, j: nat)
    requires IsSquare(m) && InBounds(r, |m|)
  {
    forall a: nat, b: nat | 1 <= a < b <= |r| - 2 && (a > i || (a == i && b >= j)) :: !Improves(m, r, a, b)
  }

  /** A 2-opt local optimum: no move improves the tour. */
  predicate LocallyOptimal(m: Matrix, r: seq<nat>)
    requires IsSquare(m) && InBounds(r, |m|)
  {
    NoImprovingFrom(m, r, 1, 2)
  }

  /** One scan of the two nested loops, resumed at `(i, j)`; `improved` is the
      flag the scan carries. It returns the tour and the flag at the end. */
  function Scan(m: Matrix, r: seq<nat>, i: nat, j: nat, improved: bool): (res: (seq<nat>, bool))
    requires IsSquare(m) && InBounds(r, |m|) && |r| >= 2
    requires 1 <= i < j
    ensures |res.0| == |r|
    decreases |r| - i, |r| - j
  {
    if i + 2 >= |r| then
      (r, improved)
    else if j + 1 >= |r| then
      Scan(m, r, i + 1, i + 2, improved)
    else if Improves(m, r, i, j) then
      ReverseSegmentInBounds(r, i, j, |m|);
      Scan(m, ReverseSegment(r, i, j), i, j + 1, true)
    else
      Scan(m, r, i, j + 1, improved)
  }

  /** A scan keeps both depot ends and the stops. */
  lemma {:induction false} ScanKeeps(m: Matrix, r: seq<nat>, i: nat, j: nat, improved: bool)
    requires IsSquare(m) && InBounds(r, |m|) && |r| >= 2
    requires 1 <= i < j
    ensures Rearranged(r, Scan(m, r, i, j, improved).0, |m|)
    decreases |r| - i, |r| - j
  {
    var res := Scan(m, r, i, j, improved);
    if i + 2 >= |r| {
      assert res == (r, improved);
    } else if j + 1 >= |r| {
      assert res == Scan(m, r, i + 1, i + 2, improved);
      ScanKeeps(m, r, i + 1, i + 2, improved);
    } else if Improves(m, r, i, j) {
      var r' := ReverseSegment(r, i, j);
      assert res == Scan(m, r', i, j + 1, true);
      ReverseSegmentKeeps(r, i, j, |m|);
      ScanKeeps(m, r', i, j + 1, true);
      RearrangedTransitive(r, r', res.0, |m|);
    } else {
      assert res == Scan(m, r, i, j + 1, improved);
      ScanKeeps(m, r, i, j + 1, improved);
    }
  }

  /** Every scan ends in one of the two ways `ScanReport` describes. */
  lemma {:induction false} ScanOutcome(m: Matrix, r: seq<nat>, i: nat, j: nat, improved: bool)
    requires Symmetric(m) && InBounds(r, |m|) && |r| >= 2
    requires 1 <= i < j
    ensures ScanReport(m, r, i, j, improved, Scan(m, r, i, j, improved))
    decreases |r| - i, |r| - j
  {
    var res := Scan(m, r, i, j, improved);
    if i + 2 >= |r| {
      assert res == (r, improved);
      NoImprovingPastEnd(m, r, i, j);
    } else if j + 1 >= |r| {
      assert res == Scan(m, r, i + 1, i + 2, improved);
      ScanOutcome(m, r, i + 1, i + 2, improved);
      NoImprovingNextRow(m, r, i, j);
    } else if Improves(m, r, i, j) {
      var r' := ReverseSegment(r, i, j);
      assert res == Scan(m, r', i, j + 1, true);
      ImprovingMove(m, r, i, j);
      ScanOutcome(m, r', i, j + 1, true);
      assert res.1 && TourCost(m, res.0) < TourCost(m, r);
    } else {
      assert res == Scan(m, r, i, j + 1, improved);
      ScanOutcome(m, r, i, j + 1, improved);
      NoImprovingNextColumn(m, r, i, j);
    }
  }

  /** The two ways a scan from `(i, j)` can end: it took no move, and then no
      move from `(i, j)` on improves the tour, or it raised the flag and the
      tour got strictly cheaper. */
  predicate ScanReport(m: Matrix, r: seq<nat>, i: nat, j: nat, improved: bool, res: (seq<nat>, bool))
    requires IsSquare(m) && InBounds(r, |m|)
  {
    || (res.0 == r && res.1 == improved && NoImprovingFrom(m, r, i, j))
    || (res.1 && TourCost(m, res.0) < TourCost(m, r))
  }

  /** An improving move keeps the depot ends and the stops, and lowers the
      tour cost. */
  lemma ImprovingMove(m: Matrix, r: seq<nat>, i: nat, j: nat)
    requires Symmetric(m) && InBounds(r, |m|) && ValidMove(|r|, i, j)
    requires Improves(m, r, i, j)
    ensures InBounds(ReverseSegment(r, i, j), |m|)
    ensures TourCost(m, ReverseSegment(r, i, j)) < TourCost(m, r)
  {
    ReverseSegmentCost(m, r, i, j);
    ReverseSegmentInBounds(r, i, j, |m|);
  }

  /** There is no move at or after a row that is past the last one. */
  lemma NoImprovingPastEnd(m: Matrix, r: seq<nat>, i: nat, j: nat)
    requires IsSquare(m) && InBounds(r, |m|) && i + 2 >= |r|
    ensures NoImprovingFrom(m, r, i, j)
  {
  }

  /** Past the last column, the moves still to come are those of the next row. */
  lemma NoImprovingNextRow(m: Matrix, r: seq<nat>, i: nat, j: nat)
    requires IsSquare(m) && InBounds(r, |m|) && j + 1 >= |r|
    ensures NoImprovingFrom(m, r, i + 1, i + 2) ==> NoImprovingFrom(m, r, i, j)
  {
  }

  /** A move that does not improve can be skipped. */
  lemma NoImprovingNextColumn(m: Matrix, r: seq<nat>, i: nat, j: nat)
    requires IsSquare(m) && InBounds(r, |m|)
    requires ValidMove(|r|, i, j) && !Improves(m, r, i, j)
    ensures NoImprovingFrom(m, r, i, j + 1) ==> NoImprovingFrom(m, r, i, j)
  {
  }

  /** The `while (improved)` loop: scan until a scan reverses nothing. It ends
      because every taken move lowers the integer tour cost, which is bounded
      below. */
  function Improve(m: Matrix, r: seq<nat>): (r': seq<nat>)
    requires Symmetric(m) && InBounds(r, |m|) && |r| >= 2
    ensures |r'| == |r| && r'[0] == r[0] && r'[|r| - 1] == r[|r| - 1]
    ensures multiset(r') == multiset(r) && InBounds(r', |m|)
    ensures TourCost(m, r') <= TourCost(m, r)
    ensures LocallyOptimal(m, r')
    decreases TourCost(m, r) - (|r| - 1) * MinEntry(m)
  {
    TourCostLowerBound(m, r);
    var res := Scan(m, r, 1, 2, false);
    ScanKeeps(m, r, 1, 2, false);
    ScanOutcome(m, r, 1, 2, false);
    if res.1 then
      TourCostLowerBound(m, res.0);
      Improve(m, res.0)
    else
      res.0
  }

  /** The improvement loop as the source writes it: `while (improved)` around
      a pass of the two `for` loops. It computes `Improve`. */
  method ImproveLoop(m: Matrix, r: seq<nat>) returns (route: seq<nat>)
    requires Symmetric(m) && InBounds(r, |m|) && |r| >= 2
    ensures route == Improve(m, r)
  {
    route := r;
    var improved := true;
    while improved
      invariant |route| == |r| && InBounds(route, |m|)
      invariant improved ==> Improve(m, route) == Improve(m, r)
      invariant !improved ==> route == Improve(m, r)
      decreases TourCost(m, route) - (|route| - 1) * MinEntry(m), improved
    {
      ghost var start := route;
      TourCostLowerBound(m, start);
      route, improved := PassLoop(m, route);
      ScanKeeps(m, start, 1, 2, false);
      ScanOutcome(m, start, 1, 2, false);
      TourCostLowerBound(m, route);
    }
  }

  /** One pass of the two `for` loops. It computes `Scan` from the first move
      with the flag cleared. */
  method PassLoop(m: Matrix, r: seq<nat>) returns (route: seq<nat>, improved: bool)
    requires Symmetric(m) && InBounds(r, |m|) && |r| >= 2
    ensures (route, improved) == Scan(m, r, 1, 2, false)
  {
    route := r;
    improved := false;
    var i := 1;
    while i < |route| - 2
      invariant 1 <= i && |route| == |r| && InBounds(route, |m|)
      invariant Scan(m, route, i, i + 1, improved) == Scan(m, r, 1, 2, false)
    {
      route, improved := InnerLoop(m, route, i, improved);
      i := i + 1;
    }
  }

  /** The inner `for` loop for one `i`: every `j` after it, reversing
      `route[i..j]` in place (the `splice`) whenever that shortens the two
      boundary legs. */
  method InnerLoop(m: Matrix, r: seq<nat>, i: nat, improved0: bool) returns (route: seq<nat>, improved: bool)
    requires Symmetric(m) && InBounds(r, |m|) && 1 <= i && i + 2 < |r|
    ensures |route| == |r| && InBounds(route, |m|)
    ensures Scan(m, route, i + 1, i + 2, improved) == Scan(m, r, i, i + 1, improved0)
  {
    route, improved := r, improved0;
    var j := i + 1;
    while j < |route| - 1
      invariant i < j && |route| == |r| && InBounds(route, |m|)
      invariant Scan(m, route, i, j, improved) == Scan(m, r, i, i + 1, improved0)
    {
      var before := m[route[i - 1]][route[i]] + m[route[j]][route[j + 1]];
      var after := m[route[i - 1]][route[j]] + m[route[i]][route[j + 1]];
      assert after < before <==> Improves(m, route, i, j);
      ScanStep(m, route, i, j, improved);
      if after < before {
        route := ReverseSegment(route, i, j);
        improved := true;
      }
      j := j + 1;
    }
  }

  /** One step of the scan at an interior pair. */
  lemma ScanStep(m: Matrix, r: seq<nat>, i: nat, j: nat, improved: bool)
    requires Symmetric(m) && InBounds(r, |m|) && 1 <= i < j && i + 2 < |r| && j + 1 < |r|
    ensures InBounds(ReverseSegment(r, i, j), |m|)
    ensures Improves(m, r, i, j) ==>
      Scan(m, r, i, j, improved) == Scan(m, ReverseSegment(r, i, j), i, j + 1, true)
    ensures !Improves(m, r, i, j) ==> Scan(m, r, i, j, improved) == Scan(m, r, i, j + 1, improved)
  {
    ReverseSegmentInBounds(r, i, j, |m|);
  }
}

=== FILE: walks.dfy ===
/** The cost of walking a sequence of stops leg by leg under a weight function.
    The optimiser's tour cost (a matrix lookup per leg) and the route graph's
    optimised and alphabetical costs (an edge-list lookup per leg) are both
    instances of it. */
module Walks {

  /** Sum of `w(s[k], s[k+1])` over every consecutive pair of stops. */
  function Cost<T>(s: seq<T>, w: (T, T) -> int): int
    decreases |s|
  {
    if |s| < 2 then 0 else w(s[0], s[1]) + Cost(s[1..], w)
  }

  /** The stops in the opposite order (`Array.prototype.reverse`). */
  function Reverse<T>(s: seq<T>): (r: seq<T>)
    ensures |r| == |s|
    ensures forall k | 0 <= k < |s| :: r[k] == s[|s| - 1 - k]
  {
    if s == [] then [] else Reverse(s[1..]) + [s[0]]
  }

  /** A weight that does not depend on the direction of travel. */
  ghost predicate SymmetricWeight<T(!new)>(w: (T, T) -> int) {
    forall x, y :: w(x, y) == w(y, x)
  }

  lemma {:induction false} ReverseMultiset<T>(s: seq<T>)
    ensures multiset(Reverse(s)) == multiset(s)
  {
    if s != [] {
      ReverseMultiset(s[1..]);
      assert s == [s[0]] + s[1..];
    }
  }

  lemma ReverseAppend<T>(a: seq<T>, b: seq<T>)
    ensures Reverse(a + b) == Reverse(b) + Reverse(a)
  {
  }

  lemma ReverseInvolutive<T>(s: seq<T>)
    ensures Reverse(Reverse(s)) == s
  {
  }

  /** Walking `a` then `b` costs both walks plus the leg joining them. */
  lemma {:induction false} CostAppend<T>(a: seq<T>, b: seq<T>, w: (T, T) -> int)
    requires |a| >= 1 && |b| >= 1
    ensures Cost(a + b, w) == Cost(a, w) + w(a[|a| - 1], b[0]) + Cost(b, w)
    decreases |a|
  {
    if |a| == 1 {
      assert (a + b)[1..] == b;
    } else {
      assert (a + b)[1..] == a[1..] + b;
      CostAppend(a[1..], b, w);
    }
  }

  /** Under a symmetric weight, walking the stops backwards costs the same. */
  lemma {:induction false} CostReverse<T(!new)>(s: seq<T>, w: (T, T) -> int)
    requires SymmetricWeight(w)
    ensures Cost(Reverse(s), w) == Cost(s, w)
    decreases |s|
  {
    if |s| >= 2 {
      CostReverse(s[1..], w);
      CostAppend(Reverse(s[1..]), [s[0]], w);
      assert Reverse(s[1..])[|s| - 2] == s[1];
    }
  }

  /** A walk of `|s|` stops whose every leg weighs at least `lo` costs at least
      `(|s| - 1) * lo`. */
  lemma {:induction false} CostLowerBound<T>(s: seq<T>, w: (T, T) -> int, lo: int)
    requires |s| >= 1
    requires forall k | 0 <= k < |s| - 1 :: w(s[k], s[k + 1]) >= lo
    ensures Cost(s, w) >= (|s| - 1) * lo
    decreases |s|
  {
    if |s| >= 2 {
      CostLowerBound(s[1..], w, lo);
    }
  }
}

=== FILE: work_orders.dfy ===
/** The work-order creation handler: validation, the invoice total from the
    used inventory and the service fee, and the defaults of the new order and
    its billing row. */
module WorkOrders {
  import opened Common
  import Billing

  datatype Priority = Low | Medium | High

  datatype Status = Pending | Scheduled | InProgress | Completed | Cancelled

  /** One used inventory line of the request. */
  datatype LineItem = LineItem(inventoryId: string, quantityUsed: int)

  /** The `serviceFee` field: a number, `NaN`, or anything that is not a
      number (including a missing field). */
  datatype FeeInput = NotANumberType | NaN | Number(value: real)

  datatype CreateRequest = CreateRequest(
    title: Option<string>,
    description: Option<string>,
    customerId: Option<string>,
    scheduledDate: Option<int>,
    priority: Option<Priority>,
    technicianId: Option<string>,
    inventoryItems: Option<seq<LineItem>>,
    serviceFee: FeeInput)

  /** A stored line: the inventory id and the stored quantity. */
  datatype StoredLine = StoredLine(inventoryId: string, quantityUsed: int)

  /** The billing row created with the order. */
  datatype BillingRow = BillingRow(totalAmount: real, status: Billing.BillingStatus)

  datatype WorkOrder = WorkOrder(
    title: string,
    description: Option<string>,
    customerId: string,
    scheduledDate: Option<int>,
    priority: Priority,
    technicianId: Option<string>,
    status: Status,
    lines: seq<StoredLine>,
    billing: BillingRow)

  /** `Math.max(1, quantityUsed)`: the quantity the line is billed for. */
  function BilledQuantity(q: int): (b: int)
    ensures b >= 1 && b >= q
    ensures b == q || b == 1
  {
    Max(1, q)
  }

  /** `quantityUsed || 1`: the quantity the line is stored with. */
  function StoredQuantity(q: int): (s: int)
    ensures s != 0
    ensures q != 0 ==> s == q
  {
    if q == 0 then 1 else q
  }

  /** The stored quantity is the billed quantity exactly when the requested one
      is not negative. */
  lemma StoredMatchesBilled(q: int)
    ensures StoredQuantity(q) == BilledQuantity(q) <==> q >= 0
  {
  }

  /** The price of one line: the unit price of its item, or 0 when the item is
      unknown, times the billed quantity. */
  function LineAmount(line: LineItem, prices: map<string, real>): (a: real)
    ensures line.inventoryId !in prices ==> a == 0.0
    ensures line.inventoryId in prices ==>
      a == prices[line.inventoryId] * BilledQuantity(line.quantityUsed) as real
  {
    (if line.inventoryId in prices then prices[line.inventoryId] else 0.0)
      * BilledQuantity(line.quantityUsed) as real
  }

  /** The `reduce` over the lines, from the left, starting at 0. */
  function Subtotal(lines: seq<LineItem>, prices: map<string, real>): real
  {
    if lines == [] then 0.0
    else Subtotal(lines[..|lines| - 1], prices) + LineAmount(lines[|lines| - 1], prices)
  }

  /** The subtotal of two lists of lines is the sum of their subtotals. */
  lemma {:induction false} SubtotalAppend(a: seq<LineItem>, b: seq<LineItem>, prices: map<string, real>)
    ensures Subtotal(a + b, prices) == Subtotal(a, prices) + Subtotal(b, prices)
    decreases |b|
  {
    if b == [] {
      assert a + b == a;
    } else {
      var b' := b[..|b| - 1];
      assert (a + b)[..|a + b| - 1] == a + b';
      assert (a + b)[|a + b| - 1] == b[|b| - 1];
      SubtotalAppend(a, b', prices);
    }
  }

  /** With non-negative unit prices the subtotal is at least the price of
      each known line once per billed unit, and never negative. */
  lemma {:induction false} SubtotalBounds(lines: seq<LineItem>, prices: map<string, real>, k: nat)
    requires forall id | id in prices :: prices[id] >= 0.0
    requires k < |lines|
    ensures Subtotal(lines, prices) >= LineAmount(lines[k], prices) >= 0.0
  {
    var before, rest := lines[..k], lines[k + 1..];
    assert lines == before + [lines[k]] + rest;
    SubtotalAppend(before + [lines[k]], rest, prices);
    SubtotalAppend(before, [lines[k]], prices);
    assert [lines[k]][..0] == [];
    SubtotalNonNegative(before, prices);
    SubtotalNonNegative(rest, prices);
  }

  lemma {:induction false} SubtotalNonNegative(lines: seq<LineItem>, prices: map<string, real>)
    requires forall id | id in prices :: prices[id] >= 0.0
    ensures Subtotal(lines, prices) >= 0.0
  {
    if lines != [] {
      SubtotalNonNegative(lines[..|lines| - 1], prices);
    }
  }

  /** Lines whose items are all unknown cost nothing. */
  lemma {:induction false} UnknownItemsCostNothing(lines: seq<LineItem>, prices: map<string, real>)
    requires forall k | 0 <= k < |lines| :: lines[k].inventoryId !in prices
    ensures Subtotal(lines, prices) == 0.0
  {
    if lines != [] {
      UnknownItemsCostNothing(lines[..|lines| - 1], prices);
    }
  }

  /** What the fee adds: `max(0, fee)` for a number that is not `NaN`, else
      nothing. */
  function FeeAmount(fee: FeeInput): (a: real)
    ensures a >= 0.0
    ensures fee.Number? && fee.value >= 0.0 ==> a == fee.value
    ensures !(fee.Number? && fee.value > 0.0) ==> a == 0.0
  {
    match fee
    case Number(v) => if v < 0.0 then 0.0 else v
    case _ => 0.0
  }

  /** The invoice total: the items' subtotal (0 without items) plus the fee.
      A negative, `NaN` or missing fee never lowers it. */
  function TotalAmount(items: Option<seq<LineItem>>, fee: FeeInput, prices: map<string, real>): (t: real)
    ensures t >= ItemsSubtotal(items, prices)
    ensures fee.Number? && fee.value >= 0.0 ==> t == ItemsSubtotal(items, prices) + fee.value
    ensures !(fee.Number? && fee.value > 0.0) ==> t == ItemsSubtotal(items, prices)
  {
    ItemsSubtotal(items, prices) + FeeAmount(fee)
  }

  function ItemsSubtotal(items: Option<seq<LineItem>>, prices: map<string, real>): (s: real)
    ensures items.None? || items.value == [] ==> s == 0.0
  {
    match items
    case Some(lines) => if |lines| > 0 then Subtotal(lines, prices) else 0.0
    case None => 0.0
  }

  /** The stored lines: one per requested line, with the stored quantity. */
  function StoredLines(items: Option<seq<LineItem>>): (ls: seq<StoredLine>)
    ensures items.None? ==> ls == []
    ensures items.Some? ==> |ls| == |items.value|
    ensures items.Some? ==> forall k | 0 <= k < |ls| ::
      ls[k] == StoredLine(items.value[k].inventoryId, StoredQuantity(items.value[k].quantityUsed))
  {
    match items
    case Some(lines) =>
      seq(|lines|, k requires 0 <= k < |lines| =>
        StoredLine(lines[k].inventoryId, StoredQuantity(lines[k].quantityUsed)))
    case None => []
  }

  /** The POST handler, given the unit prices of the inventory items. */
  function Create(req: CreateRequest, prices: map<string, real>): (r: Result<WorkOrder, Failure>)
    ensures r.Err? <==> !Present(req.title) || !Present(req.customerId)
    ensures r.Err? ==> r.error == BadRequest("title and customerId are required")
    ensures r.Ok? ==>
      && r.value.title == req.title.value
      && r.value.customerId == req.customerId.value
      && r.value.description == req.description
      && r.value.scheduledDate == req.scheduledDate
      && r.value.status == Pending
      && r.value.priority == req.priority.GetOr(Medium)
      && r.value.technicianId == req.technicianId
      && r.value.billing == BillingRow(TotalAmount(req.inventoryItems, req.serviceFee, prices), Billing.Pending)
      && r.value.lines == StoredLines(req.inventoryItems)
  {
    if !Present(req.title) || !Present(req.customerId) then
      Err(BadRequest("title and customerId are required"))
    else
      Ok(WorkOrder(
        req.title.value,
        req.description,
        req.customerId.value,
        req.scheduledDate,
        req.priority.GetOr(Medium),
        req.technicianId,
        Pending,
        StoredLines(req.inventoryItems),
        BillingRow(TotalAmount(req.inventoryItems, req.serviceFee, prices), Billing.Pending)))
  }
}
